=== FILE: README.md ===
# Chatbotdemo core in Dafny

This project models the decision logic of the Chatbotdemo backend, an Azure
Function App that passes a user's prompt to an OpenAI assistant. Each user has
one conversation thread on the assistant service. The mapping from user
e-mail to thread id lives in the "UserThreads" table.

The model covers:

- **The chat turn** (`InteractWithOpenAI.get_or_create_thread` and `chat` in
  the OpenAI backend and its Azure sibling).
  - Get-or-create over the user → thread table.
  - Appending the prompt, creating a run, and polling the run status until it
    is terminal.
  - Mapping the final status and message listing to an HTTP status and body:
    200, 500 or 509.
  - On a miss, the Azure backend is meant to publish a "user registered"
    CloudEvent. As written, it raises `TypeError` and publishes nothing (see
    Findings).
- **Tool dispatch** (`AssistantTools`): looking a tool method up by name,
  tagging its output with the call id, and the `set_read_along` toggle, which
  includes Python's `int()` on the argument.
- **The HTTP routes** (`function_app.py`): parameter validation, the
  timestamped prompt template, and the `chat`, `mock` and `ping` routes.
- **Events.** `EventGridPublisher.send_event` derives a factory-method name
  and builds and sends one event. `BaseCloudEvent`, `to_cloudevent` and
  `UserRegisteredEvent` build the envelope with the attributes from the
  Context Attributes section of the CloudEvents 1.0 specification.

Everything is a pure function. The remote collaborators are given as inputs
that describe what each call does:

- **The assistant service** (`Remote.Service`): the outcome of creating a
  thread, appending a message, creating a run and listing messages, plus the
  sequence of statuses that successive `runs.retrieve` calls report.
- **The table** (`UserThreads.Store`): its rows, whether reads reach it, and
  what an upsert does.
- **The preference store, the clock, the environment, uuids and the event
  send.**

A turn also returns the calls it made, as a sequence of `Remote.Effect`. This
lets ordering and "nothing else happened" be stated.

The turn as modelled follows the code of `chat` (API/o_openai.py:92-133):
it has no branch for a `requires_action` status, which therefore keeps the
poll loop running, it never cancels or retries a run on a busy thread, and
`cancelled` ends the poll loop with 500 like `failed` and `expired`.

Exception kinds and texts are those of CPython 3.11 to 3.13. Among them are:

- the `TypeError` of a plain `with` on an object that has only
  `__aenter__`/`__aexit__`, and its text;
- the text of `UnboundLocalError`;
- the texts of `AttributeError` and of a call's unexpected keyword argument.

On 3.10 and earlier, that plain `with` raises `AttributeError: __enter__`
instead, and the other texts differ in wording. On 3.14 it is still a
`TypeError`, but its text is longer: "'event_grid_publisher.EventGridPublisher'
object does not support the context manager protocol (missed __exit__ method)
but it supports the asynchronous context manager protocol. Did you mean to use
'async with'?".

Modules and files:

| file | module | source |
|---|---|---|
| errors.dfy | `Errors` | Python exceptions, `Option`, `Result`, `Outcome` |
| environment.dfy | `Environment` | the process environment, `os.getenv` |
| text.dfy | `Text` | decimal rendering, `str.replace` of one character, prefix and index search |
| pyint.dfy | `PyInt` | `int(text)` and `str(n)` |
| cloudevents.dfy | `CloudEvents` | API/my_cloudevents.py |
| publisher.dfy | `Publisher` | API/event_grid_publisher.py |
| store.dfy | `UserThreads` | API/user_threads.py (`get_id`, `set_id`) |
| remote.dfy | `Remote` | the assistant service as seen by the backends |
| turn.dfy | `ChatTurn` | the part of `chat` shared by both backends |
| openai_backend.dfy | `OpenAIBackend` | API/o_openai.py |
| azure_backend.dfy | `AzureBackend` | API/azure_openai.py |
| tools.dfy | `AssistantTools` | API/assistant_tools.py |
| function_app.dfy | `FunctionApp` | API/function_app.py |

## Model

| member | source | states |
|---|---|---|
| UserThreads.GetId | API/user_threads.py:39-51 | A read gives the stored id exactly when the table is readable and has the user's row. Every other case, an unreachable table included, raises `LookupError("ThreadNotFound")`. |
| UserThreads.SetId | API/user_threads.py:53-72 | A successful upsert sets the user's row to the new id and leaves every other row as it was. A failed upsert raises `IOError("ThreadPersistenceFailed")`. |
| ChatTurn.Settle | API/o_openai.py:115-119 | The poll loop stops at a status in {completed, failed, cancelled, expired} or at an exception. Every earlier retrieval was pending. It runs on exactly when every retrieval in the trace is pending, unknown statuses included. |
| ChatTurn.SettleStopsAtFirst | API/o_openai.py:115-119 | The loop stops exactly at the first retrieval that is not pending, after that many polls, with that status or that exception. |
| ChatTurn.Caught | API/o_openai.py:131-133 | An exception in the turn becomes status 509. |
| ChatTurn.Answer | API/o_openai.py:121-126 | A completed run gives 200 with the first content block of the newest message. Any body other than the fallback requires a message with content. A non-text block raises `AttributeError`. |
| ChatTurn.Converse | API/o_openai.py:100-133 | The turn leaves the table as get-or-create left it. It only adds calls after those of get-or-create. It answers 200, 500 or 509, and gives no answer only while the run is still pending. |
| ChatTurn.AppendBeforeRun | API/o_openai.py:101-113 | The prompt is appended once, before the run is created once. Both calls, and every later call, use the thread id that get-or-create returned. |
| ChatTurn.StatusCodes | API/o_openai.py:115-133 | 500 exactly when the run stopped in a terminal status other than completed; the body names that status. 509 exactly when some step raised. 200 exactly when a completed run's reply was read. No answer exactly when polling had not ended. |
| ChatTurn.CompletedReply | API/o_openai.py:121-126 | A completed run answers 200 with the newest message's first text verbatim. With no message or empty content it answers 200 "No response message found.". |
| ChatTurn.RunStatusIssue | API/o_openai.py:129 | The 500 body is "*ISSUE* **Run Status: " + status + "**": the status sits verbatim between the fixed prefix and the closing "**". |
| ChatTurn.ExceptionEndsTurn | API/o_openai.py:100-133 | A failure of get-or-create, of the append or of `runs.create` answers 509 "*ISSUE* **<text>**". The calls made are exactly those up to the one that raised, so there is no retry. |
| ChatTurn.PollExceptionEndsTurn | API/o_openai.py:115-133 | When the k-th retrieval raises after k pending ones, the turn answers 509 with its text. Exactly k + 1 retrievals follow the append and the run creation, and nothing after them. |
| ChatTurn.ListingExceptionEndsTurn | API/o_openai.py:121-133 | After a completed run, a raising `messages.list` or a newest message whose first block has no `text` answers 509 with that text. The last call is the one listing. A non-text block gives `AttributeError` naming the block's class. |
| OpenAIBackend.Connect | API/o_openai.py:30-45 | An unset or empty `OPENAI_API_KEY` raises `EnvironmentError` before a client is made. Otherwise the outcome is that of making the client. |
| OpenAIBackend.GetOrCreateThread | API/o_openai.py:68-90 | A returned id is stored for the user. A thread is created exactly when the table was reached and the read missed, or when constructing the table raised a `LookupError`. Only the user's row can change. At most two effects are recorded: thread creation and the store. The table read is not recorded as an effect. |
| OpenAIBackend.ConnectLookupErrorOrphansThread | API/o_openai.py:75-82 | If constructing the table raises a `LookupError`, the handler still creates a thread. Storing it then fails on the unset `self.threads` with `AttributeError`, and the new thread is orphaned. |
| OpenAIBackend.HitReturnsStoredId | API/o_openai.py:75-77 | On a hit the stored id is returned, nothing is created and the table is unchanged. |
| OpenAIBackend.MissCreatesOneThread | API/o_openai.py:78-82 | On a miss exactly one thread is created. Its id is stored for the user and returned. |
| OpenAIBackend.FailuresPropagate | API/o_openai.py:83-88 | A table that cannot be reached (with an error other than `LookupError`), a failed thread creation, or a failed store is re-raised, never swallowed. The rows stay as they were. |
| OpenAIBackend.SecondCallHits | API/o_openai.py:68-90 | After a call has returned an id, the next call for the same user returns the same id and creates nothing. |
| OpenAIBackend.UnreadableTableReplacesThread | API/user_threads.py:46-51 | Because every read failure counts as a miss, an unreachable read gives a user who already has a thread a new one. The new id replaces the stored one. |
| OpenAIBackend.Chat | API/o_openai.py:92-133 | `chat` answers 200, 500 or 509. At most the user's row changes. A table that cannot be reached, with an error other than `LookupError`, answers 509 with no further call. |
| AzureBackend.Connect | API/azure_openai.py:32-49 | Both the Azure API key and the endpoint must be set and non-empty, else `EnvironmentError`. |
| AzureBackend.RegistrationDetails | API/azure_openai.py:84 | The event data has exactly the keys "email" and "thread_id", holding the user's e-mail and the new thread id. |
| AzureBackend.Announce | API/azure_openai.py:86-88 | As written, the block always fails with `TypeError` and publishes nothing. Corrected, at most one event is published, carrying the registration details, and exactly one when the block ends normally. Without an access key both fail at `EventGridPublisher()`. |
| AzureBackend.GetOrCreateThread | API/azure_openai.py:69-97 | As in the OpenAI backend, with the same rows afterwards. A publish happens only in the corrected block, only as the third call, after the thread was created and stored. As written, a miss that created and stored a thread raises `TypeError`. |
| AzureBackend.HitPublishesNothing | API/azure_openai.py:73-75 | On a hit the stored id is returned with no thread creation and no publish. |
| AzureBackend.IntendedRegistrationPublishes | API/azure_openai.py:76-88 | Corrected, on a miss a thread is created and stored. Then one event is published with data {"email": user, "thread_id": id}, type namespace + "user.registered" and the application id as source. The id is returned whether the network send succeeds or not. |
| AzureBackend.WrittenRegistrationRaises | API/azure_openai.py:81-92 | As written, with the access key set, every miss raises the `TypeError` of the plain `with` after the new id was stored and before anything is published. |
| AzureBackend.FailedPublishKeepsMapping | API/azure_openai.py:81-92 | A failed announcement is re-raised with its own exception, although the mapping is already stored. The next call for the user takes the hit path with that id. |
| AzureBackend.Chat | API/azure_openai.py:99-135 | Answers 200, 500 or 509. A 500 carries the terminal status the loop stopped at. |
| AzureBackend.WrittenFirstChatFails | API/azure_openai.py:99-135 | As written, a new user's first chat answers 509 with the context-manager error, though the thread was created and stored. |
| CloudEvents.NewBaseCloudEvent | API/my_cloudevents.py:18-33 | `specversion` is "1.0", and type, data, id and time are kept. A non-empty source is kept verbatim. An empty one falls back to `EVENT_GRID_APPLICATION_ID`, and is `None` when that is unset; it never raises. |
| CloudEvents.ToCloudEvent | API/my_cloudevents.py:35-44 | The envelope has exactly the attributes specversion, id, source, type, time and data, and the data once more as payload. |
| CloudEvents.EnvelopeRoundTrip | API/my_cloudevents.py:35-44 | Every field of the event object can be read back from its envelope unchanged. |
| CloudEvents.EnvelopeOfNewEvent | API/my_cloudevents.py:18-44 | The envelope of a constructed event carries "1.0" and the given type, id, time and data, and the source or its environment fallback. |
| CloudEvents.UserRegisteredEvent | API/my_cloudevents.py:47-62 | The type is `APP_NAMESPACE` + "user.registered", the source is the environment fallback, and the details are the data. An unset namespace raises `TypeError`, not the `ValueError` the handler intends. |
| Publisher.FactoryName | API/event_grid_publisher.py:51 | The name starts with "create_" and ends with "_event". In between is the event type character by character, each "." replaced by "_" and every other character kept. No "." remains. |
| Publisher.FactoryNameInverse | API/event_grid_publisher.py:51 | For event types without "_", the factory name determines the event type. |
| Publisher.FactoryNameConflatesDots | API/event_grid_publisher.py:51 | "user.registered" and "user_registered" map to the same factory "create_user_registered_event". |
| Publisher.SendEvent | API/event_grid_publisher.py:48-70 | `ValueError` exactly when no factory of that name exists, and then nothing is sent. Otherwise exactly the factory's event is sent as a one-element batch, and a failed send is not propagated. |
| Publisher.NoFactoryInEventClass | API/event_grid_publisher.py:53-59 | Against an event class with no attribute starting "create_", such as the shown `BaseCloudEvent`, every `send_event` raises before sending. |
| Publisher.BindSendEvent | API/event_grid_publisher.py:48 | A keyword-only call binds exactly when every keyword names a parameter (`event_type`, `details`) and both parameters are given. Otherwise it raises `TypeError` before any coroutine exists. |
| Publisher.EventKeywordRejected | API/event_grid_publisher.py:48 | `send_event(event=...)` raises `TypeError` "... got an unexpected keyword argument 'event'". |
| Publisher.NewPublisher | API/event_grid_publisher.py:29-35 | `EventGridPublisher()` succeeds exactly when `EVENT_GRID_ACCESS_KEY` is set. Otherwise the credential raises `TypeError` "key must be a string.", which `except KeyError` does not catch. |
| Publisher.EnterPublisher | API/event_grid_publisher.py:37-45 | A block enters exactly when the publisher defines that kind of context methods. Otherwise it raises `TypeError`. |
| Publisher.OnlyAsyncWithEnters | API/event_grid_publisher.py:37-45 | A plain `with` on the publisher always raises. `async with` enters. |
| AssistantTools.HandleToolCall | API/assistant_tools.py:49-78 | A call yields an output exactly when its type is "function", its arguments decode, and a method of that name exists and returns. The output is `{tool_call_id: call.id, output: value}` with the value unchanged. Another type raises `NotImplementedError`. An unknown name or a raising method raises `UnboundLocalError` at the enqueue. |
| AssistantTools.ExecuteToolCalls | API/assistant_tools.py:27-46 | Succeeds exactly when every call succeeds, with one output per call. A failure is the failure of one of the calls. |
| AssistantTools.OneOutputPerCall | API/assistant_tools.py:39-46 | When all calls succeed, the multiset of output ids equals the multiset of call ids. |
| AssistantTools.HandledIsOrderIndependent | API/assistant_tools.py:39-40 | Reordering the calls only permutes their individual results. |
| AssistantTools.BatchIsOrderIndependent | API/assistant_tools.py:37-46 | For any order of the same calls, success is the same and so is the multiset of outputs. The queue order is therefore not part of the result. |
| AssistantTools.StateWord | API/assistant_tools.py:124-128 | "deaktiviert" exactly for 0, "aktiviert" for every other integer. |
| AssistantTools.SetReadAlong | API/assistant_tools.py:89-134 | At most one write, of exactly (email, read_along). It is made exactly when the value parses and the stored setting differs from it. |
| AssistantTools.InvalidValueTouchesNothing | API/assistant_tools.py:103-107 | A value `int()` rejects answers "Invalid value for read along. Please use 0 or 1.". The result is the same whatever the store holds or does. |
| AssistantTools.SameValueWritesNothing | API/assistant_tools.py:120-124 | If the stored setting equals the parsed value, nothing is written and the "Es musste nichts gemacht werden" message is returned. |
| AssistantTools.OtherValueWritesOnce | API/assistant_tools.py:125-128 | Otherwise the new setting is written once and the "wurde erfolgreich" message is returned. |
| AssistantTools.RenderedToggle | API/assistant_tools.py:104-128 | For the rendering of any integer n that `str` renders (at most 4300 digits), the reply names n's state, and a write happens exactly when the stored value differs from n. |
| AssistantTools.SetReadAlongTool | API/assistant_tools.py:89 | Called with exactly the keywords `email` and `read_along`, the tool gives `set_read_along`'s reply. Any other set of keywords raises. |
| AssistantTools.Tools | API/assistant_tools.py:62-67 | `set_read_along` is the only name whose call can return, and it is the tool above. Every other attribute `getattr` finds raises inside the `try`, as a missing name does. |
| AssistantTools.ReadAlongCallOutput | API/assistant_tools.py:58-74 | A `set_read_along` call outputs its reply under the call id, or no output when the method raised. Any other name gives no output. |
| PyInt.ParseInt | API/assistant_tools.py:103-107 | A string without a digit never parses as an integer. |
| PyInt.ParseIntExactly | API/assistant_tools.py:103-107 | `int(s)` returns n exactly when s, stripped of whitespace, is an optional sign followed by at most 4300 digits with single underscores between them. Those digits have the value of n's magnitude, negated after "-". The whitespace stripped is ASCII space, `\t` to `\r`, and non-ASCII Unicode whitespace, but not U+001C to U+001F. Every other string raises. |
| PyInt.ParseShowRoundTrip | API/assistant_tools.py:103-104 | `int(str(n)) == n` for every integer `str` renders, i.e. of at most 4300 digits. |
| PyInt.SeparatorNotStripped | API/assistant_tools.py:103-107 | "\x1c1" is rejected: the ASCII separators are not stripped, though they count as Unicode whitespace. |
| FunctionApp.ChatRequestParams | API/function_app.py:42-52 | Fails exactly when Name, email or prompt is missing or empty, raising "One or more parameters missing". Otherwise it keeps all three verbatim. |
| FunctionApp.FormatTimestamp | API/function_app.py:82 | The timestamp is the unpadded year followed by fifteen characters, with "-", "-", " ", ":" and ":" at their fixed places. |
| FunctionApp.TimestampRoundTrip | API/function_app.py:82 | The "%Y-%m-%d %H:%M:%S" timestamp reads back to the time it was made from. |
| FunctionApp.TimestampHasNoNewline | API/function_app.py:82 | The timestamp is one line. |
| FunctionApp.ComposePrompt | API/function_app.py:85 | The prompt starts with "Mein Name: " followed by the name. It ends with the user's prompt verbatim, and its length is that of the labels plus the three parts. |
| FunctionApp.PromptRoundTrip | API/function_app.py:85 | From "Mein Name: {name}\nDatum und Uhrzeit: {ts}\nMein Prompt: {prompt}", the name, timestamp and prompt are recovered when name and timestamp are single lines. |
| FunctionApp.ChatEndpoint | API/function_app.py:70-90 | As written, a parameter failure raises `NameError`, and a constructor failure propagates. Otherwise the backend is asked with the e-mail and the templated prompt, and its reply is returned unchanged. |
| FunctionApp.ChatEndpointIntended | API/function_app.py:76-79 | With `e` bound, a parameter failure answers 400 "An error has occured: One or more parameters missing". Every other request behaves as written. |
| FunctionApp.MissingParameterRaisesNameError | API/function_app.py:76-79 | A request lacking a parameter gets `NameError` from both `chat` and `mock` instead of the intended 400. |
| FunctionApp.ChatForwardsToBackend | API/function_app.py:82-90 | The backend receives the e-mail, not the name, and a prompt from which name, timestamp and prompt text can be read back. The timestamp gives back the clock reading. |
| FunctionApp.MissingKeyRaisesBeforeBackend | API/function_app.py:87-88 | Without an API key a valid `chat` request raises `EnvironmentError` and the backend is never asked. |
| FunctionApp.MockEndpoint | API/function_app.py:56-67 | Valid parameters give 200 "Hello, {name}! So you like to talk about {prompt}". Invalid ones raise `NameError`. |
| FunctionApp.Ping | API/function_app.py:95-102 | `ping` answers 200 "pong". |

## Left out

- Network calls, the SDK clients, logging, `time.sleep` and `close()` are not modelled. Each remote call is an input outcome, and `close()` in `__exit__` is assumed not to raise.
- ChatTurn.Converse: the poll trace is finite. A trace in which every retrieval stays pending gives no reply rather than an endless loop.
- AssistantTools.ExecuteToolCalls: the calls of a batch run one after another in list order. When several calls raise, the reported error is the first in list order, whereas `gather` makes no ordering promise. Output order is only promised as a multiset.
- AssistantTools.HandleToolCall: a method's result is whatever the handler gives. Decoding the JSON arguments is an input: decoded names or a decoder error, with the error raised as `ValueError`.
- AssistantTools.SetReadAlongTool: argument values are modelled as strings, as the annotation `read_along: str` declares. A JSON number, boolean or null that the assistant might send is not modelled. For those, `int()` would truncate `1.0`, convert `true`, or raise an uncaught `TypeError` for `null`.
- AssistantTools.SetReadAlongTool: the exact `TypeError` text Python produces for wrong keyword arguments is not modelled. The text never surfaces, because the failure turns into `UnboundLocalError`.
- AssistantTools.PrefStore: `get_extended_events` and `set_extended_events` are not defined by the shown `UserThreads` class. The store is abstract: what the read returns, and whether the write and the close succeed.
- PyInt.ShowInt: renders every integer, whereas `str(n)` raises `ValueError` past 4300 digits. The lemmas that use it require `PyInt.Renderable`.
- PyInt.ParseInt: the digit limit is the default 4300; a changed `sys.set_int_max_str_digits` is not modelled. Only ASCII digits are accepted, whereas Python also accepts other Unicode decimal digits. Its own contract only rules out digit-free strings. The grammar it accepts is stated by `PyInt.ParseIntExactly`.
- AzureBackend.Announce: the as-written block never gets past the plain `with`. The keyword call and the missing `await` after it are modelled, through `Publisher.BindSendEvent`, but cannot be reached. The corrected block's event-building and network failures are inputs.
- AzureBackend.Registration: what opening the `EventGridPublisherClient` in `__aenter__` does and what `client.send` does are inputs. The endpoint is not checked.
- UserThreads.Store: table construction from the connection string is one input outcome, `connect`.
- OpenAIBackend.Connect, AzureBackend.Connect: the outcome of making the SDK client is an input.
- `EventGridPublisher.__aexit__` and its `client.close()` are not modelled.
- FunctionApp.FormatTimestamp: the year is rendered without padding, as the C library does. Years below 1000 would be zero-padded by some C libraries.
- The `status` route returns a fixed JSON string and is not modelled.
- `uuid4`, `datetime.now` and the environment are inputs.

## Findings

| source | as written | input that shows it | evidently intended | confidence | as-written member | corrected member |
|---|---|---|---|---|---|---|
| API/azure_openai.py:87-88 | a plain `with EventGridPublisher()` on a class that defines only `__aenter__` and `__aexit__`; inside it, `send_event(event=...)` with a keyword the method does not take, and not awaited; no factory `create_user_registered_event` exists on `BaseCloudEvent` | the first chat of any user with no stored thread, with the access key set, when the Azure backend is the one in use (the HTTP app imports the OpenAI backend, API/function_app.py:16) | `get_or_create_thread` and `chat` made `async def` and awaited by their callers; `async with EventGridPublisher() as publisher`; `await publisher.send_event("user.registered", user_details)`; a `create_user_registered_event` factory on the event class that builds the registration event and its envelope. The registration event is then published after the thread is stored | high; not executed | AzureBackend.WrittenRegistrationRaises | AzureBackend.IntendedRegistrationPublishes |
| API/function_app.py:78-79 | bare `except:` whose reply formats `e`, which is unbound; the `mock` route has the same defect at lines 63-64 | a `chat` request without a `prompt` parameter | `except Exception as e:` answering 400 "An error has occured: One or more parameters missing" | high; not executed | FunctionApp.MissingParameterRaisesNameError | FunctionApp.ChatEndpointIntended |

=== FILE: azure_backend.dfy ===
/** The Azure OpenAI sibling backend: the same turn, but after a new thread
    has been stored the user is announced on the event bus. The announcement
    is modelled twice: as written, and as evidently intended. */
module AzureBackend {
  import opened Errors
  import opened Remote
  import opened UserThreads
  import opened ChatTurn
  import opened CloudEvents
  import opened Publisher
  import OpenAIBackend
  import opened Environment

  const ApiKeyVariable := "AZURE_OPENAI_API_KEY"
  const EndpointVariable := "AZURE_OPENAI_ENDPOINT"
  const SettingsMissing := Exception(EnvironmentError, "AZURE_OPENAI_API_KEY oder AZURE_OPENAI_ENDPOINT Umgebungsvariable ist nicht gesetzt.")

  /** The constructor of the Azure backend: both the API key and the endpoint
      must be set and non-empty; the API version may be missing. */
  function Connect(env: Env, client: Outcome): (o: Outcome)
    ensures o.Pass? <==> IsSet(env, ApiKeyVariable) && IsSet(env, EndpointVariable) && client.Pass?
    ensures !(IsSet(env, ApiKeyVariable) && IsSet(env, EndpointVariable)) ==> o == Fail(SettingsMissing)
    ensures IsSet(env, ApiKeyVariable) && IsSet(env, EndpointVariable) ==> o == client
  {
    if !IsSet(env, ApiKeyVariable) || !IsSet(env, EndpointVariable) then Fail(SettingsMissing)
    else client
  }

  /** The announcement block as written (a plain `with` and a call
      `send_event(event=...)` that is never awaited) or as corrected (an
      `async with`, an awaited `send_event("user.registered", details)`, and
      a `create_user_registered_event` factory on the event class). */
  datatype Revision = AsWritten | Corrected

  /** What the announcement depends on besides the user and the thread: the
      environment, the fresh event id and time, what opening the client in
      `__aenter__` does and what the network send does. */
  datatype Registration = Registration(
    env: Env,
    eventId: string,
    eventTime: string,
    open: Outcome,
    send: Outcome)

  /** The event data of a registration. */
  function RegistrationDetails(user: string, threadId: string): (d: Data)
    ensures d.Keys == {"email", "thread_id"}
    ensures d["email"] == user && d["thread_id"] == threadId
  {
    map["email" := user, "thread_id" := threadId]
  }

  const RegistrationEventType := "user.registered"

  /** The factory the corrected event class offers: the registration event
      and its envelope. */
  function RegistrationFactory(reg: Registration): Factory {
    (d: Data) =>
      match UserRegisteredEvent(d, reg.env, reg.eventId, reg.eventTime)
      case Raise(e) => Raise(e)
      case Ok(event) => Ok(ToCloudEvent(event))
  }

  function CorrectedFactories(reg: Registration): map<string, Factory> {
    map[FactoryName(RegistrationEventType) := RegistrationFactory(reg)]
  }

  /** The first failure of two steps run one after the other. */
  function Then(first: Outcome, second: Outcome): (o: Outcome)
    ensures first.Fail? ==> o == first
    ensures first.Pass? ==> o == second
  {
    if first.Fail? then first else second
  }

  /** How the announcement ends and which events it handed to the client. */
  datatype Announcement = Announcement(outcome: Outcome, published: seq<CloudEvent>)

  /** The block at lines 86-88. `EventGridPublisher()` is evaluated first.
      As written, the plain `with` then raises; past it, the argument would
      be built and the call would fail to bind, and a bound call would be a
      coroutine nobody awaits, so nothing is ever published. Corrected, the
      client is opened and the event goes out through `send_event`, which
      swallows a failed send. */
  function Announce(user: string, threadId: string, reg: Registration, rev: Revision): (a: Announcement)
    ensures |a.published| <= 1
    ensures rev == AsWritten ==> a.published == [] && a.outcome.Fail? && a.outcome.exc.kind == TypeError
    ensures NewPublisher(reg.env).Fail? ==> a == Announcement(NewPublisher(reg.env), [])
    ensures a.outcome.Pass? && rev == Corrected ==> |a.published| == 1
    ensures |a.published| == 1 ==> a.published[0].data == RegistrationDetails(user, threadId)
  {
    var details := RegistrationDetails(user, threadId);
    match rev
    case AsWritten =>
      var built := match UserRegisteredEvent(details, reg.env, reg.eventId, reg.eventTime)
                   case Raise(e) => Fail(e)
                   case Ok(_) => Pass;
      Announcement(Then(NewPublisher(reg.env), Then(EnterPublisher(SyncWith), Then(built, BindSendEvent(["event"])))), [])
    case Corrected =>
      var entered := Then(NewPublisher(reg.env), Then(EnterPublisher(AsyncWith), reg.open));
      if entered.Fail? then Announcement(entered, [])
      else
        match SendEvent(CorrectedFactories(reg), RegistrationEventType, details, reg.send)
        case Raise(e) => Announcement(Fail(e), [])
        case Ok(delivery) => Announcement(Pass, delivery.batch)
  }

  /** `get_or_create_thread(user_email)`: the OpenAI backend's resolution,
      followed by the announcement when that resolution created and stored a
      new thread; a failure of the announcement is re-raised. */
  function GetOrCreateThread(store: Store, user: string, newThread: Result<string>, reg: Registration, rev: Revision): (r: Resolution)
    ensures var base := OpenAIBackend.GetOrCreateThread(store, user, newThread);
            && r.threads == base.threads
            && base.effects <= r.effects
            && (r.thread.Ok? ==> r.thread == base.thread)
            && (!(base.thread.Ok? && CreateThread in base.effects) ==> r == base)
    ensures forall i :: 0 <= i < |r.effects| && r.effects[i].Publish? ==>
              && rev == Corrected && newThread.Ok? && i == 2
              && r.effects[..2] == [CreateThread, StoreThread(user, newThread.value)]
              && r.effects[i].event.data == RegistrationDetails(user, newThread.value)
    ensures rev == AsWritten && CreateThread in r.effects && store.upsert.Pass? && newThread.Ok? && store.connect.Pass? ==>
              r.thread.Raise? && r.thread.exc.kind == TypeError
  {
    var base := OpenAIBackend.GetOrCreateThread(store, user, newThread);
    if base.thread.Ok? && CreateThread in base.effects then
      var a := Announce(user, base.thread.value, reg, rev);
      var published := if |a.published| == 0 then [] else [Publish(a.published[0])];
      var thread := if a.outcome.Fail? then Raise(a.outcome.exc) else base.thread;
      Resolution(thread, base.threads, base.effects + published)
    else base
  }

  /** On a hit the stored id is returned with no thread creation and no
      publish. */
  lemma HitPublishesNothing(store: Store, user: string, newThread: Result<string>, reg: Registration, rev: Revision)
    requires store.connect.Pass? && store.readable && user in store.threads
    ensures GetOrCreateThread(store, user, newThread, reg, rev) == Resolution(Ok(store.threads[user]), store.threads, [])
  {
  }

  /** Corrected, a miss creates a thread, stores it, and then publishes one
      registration event carrying the e-mail and the thread id; the id is
      returned whether or not the network send succeeds. */
  lemma IntendedRegistrationPublishes(store: Store, user: string, id: string, reg: Registration)
    requires NamespaceVariable in reg.env && AccessKeyVariable in reg.env && reg.open.Pass?
    requires store.connect.Pass? && !(store.readable && user in store.threads) && store.upsert.Pass?
    ensures var r := GetOrCreateThread(store, user, Ok(id), reg, Corrected);
            && r.thread == Ok(id)
            && r.threads == store.threads[user := id]
            && |r.effects| == 3
            && r.effects[..2] == [CreateThread, StoreThread(user, id)]
            && r.effects[2].Publish?
            && r.effects[2].event.data == map["email" := user, "thread_id" := id]
            && r.effects[2].event.attributes["type"] == Text(reg.env[NamespaceVariable] + UserRegisteredSuffix)
            && r.effects[2].event.attributes["source"] == SourceAttribute(GetEnv(reg.env, ApplicationIdVariable))
  {
  }

  /** As written, every miss raises `TypeError` after the new id has been
      stored and before anything is published; with the access key set it is
      the context-manager error of the plain `with`. */
  lemma WrittenRegistrationRaises(store: Store, user: string, id: string, reg: Registration)
    requires AccessKeyVariable in reg.env
    requires store.connect.Pass? && !(store.readable && user in store.threads) && store.upsert.Pass?
    ensures GetOrCreateThread(store, user, Ok(id), reg, AsWritten)
         == Resolution(Raise(NoSyncProtocol), store.threads[user := id], [CreateThread, StoreThread(user, id)])
  {
  }

  /** A failed announcement is re-raised although the mapping is already
      stored, so the next call for that user takes the hit path. */
  lemma FailedPublishKeepsMapping(store: Store, user: string, id: string, reg: Registration, rev: Revision,
                                  next: Store, second: Result<string>, reg2: Registration, rev2: Revision)
    requires store.connect.Pass? && !(store.readable && user in store.threads) && store.upsert.Pass?
    requires Announce(user, id, reg, rev).outcome.Fail?
    requires next.connect.Pass? && next.readable && next.threads == store.threads[user := id]
    ensures var r := GetOrCreateThread(store, user, Ok(id), reg, rev);
            && r.thread == Raise(Announce(user, id, reg, rev).outcome.exc)
            && r.threads == next.threads
    ensures GetOrCreateThread(next, user, second, reg2, rev2) == Resolution(Ok(id), next.threads, [])
  {
  }

  /** `chat(user_email, prompt)`. */
  function Chat(store: Store, user: string, prompt: string, service: Service, reg: Registration, rev: Revision): (t: Turn)
    ensures t.reply.Some? ==> t.reply.value.code in {200, 500, 509}
    ensures t.reply.Some? && t.reply.value.code == 500 ==>
              Settle(service.polls).Stopped? && t.reply.value.body == RunStatusIssue(Settle(service.polls).status)
  {
    Converse(GetOrCreateThread(store, user, service.newThread, reg, rev), prompt, service)
  }

  /** As written, a first chat of a new user answers 509 with the
      context-manager error, though the thread was created and stored. */
  lemma WrittenFirstChatFails(store: Store, user: string, prompt: string, service: Service, reg: Registration)
    requires AccessKeyVariable in reg.env && service.newThread.Ok?
    requires store.connect.Pass? && !(store.readable && user in store.threads) && store.upsert.Pass?
    ensures var t := Chat(store, user, prompt, service, reg, AsWritten);
            && t.reply == Some(Reply(509, IssueBody(NoSyncProtocol.text)))
            && t.threads == store.threads[user := service.newThread.value]
  {
  }
}

=== FILE: cloudevents.dfy ===
/** The event envelope the backend builds before publishing: the attribute
    record of the Context Attributes section of the CloudEvents 1.0
    specification (`id`, `source`, `specversion`, `type`, plus `time`) and
    the one concrete event, "user registered". */
module CloudEvents {
  import opened Errors
  import opened Environment

  /** An event payload: a flat dictionary of strings. */
  type Data = map<string, string>

  const SpecVersion := "1.0"
  const ApplicationIdVariable := "EVENT_GRID_APPLICATION_ID"
  const NamespaceVariable := "APP_NAMESPACE"
  const UserRegisteredSuffix := "user.registered"

  /** The fields of a constructed `BaseCloudEvent`. The source is `None`
      when it fell back to an unset environment variable. */
  datatype BaseCloudEvent = BaseCloudEvent(
    source: Option<string>,
    eventType: string,
    specversion: string,
    id: string,
    time: string,
    data: Data)

  /** `BaseCloudEvent(source, type, data)`, with the fresh uuid and the
      current UTC time taken as inputs. */
  function NewBaseCloudEvent(source: string, eventType: string, data: Data, env: Env, id: string, time: string): (e: BaseCloudEvent)
    ensures e.specversion == SpecVersion
    ensures e.eventType == eventType && e.data == data
    ensures e.id == id && e.time == time
    ensures source != "" ==> e.source == Some(source)
    ensures source == "" ==> e.source == GetEnv(env, ApplicationIdVariable)
  {
    var src := if source != "" then Some(source) else GetEnv(env, ApplicationIdVariable);
    BaseCloudEvent(src, eventType, SpecVersion, id, time, data)
  }

  /** One value of the attribute dictionary handed to the CloudEvents library. */
  datatype Attribute = Text(text: string) | NoneValue | Payload(payload: Data)

  /** The library event: its attribute dictionary and its payload. */
  datatype CloudEvent = CloudEvent(attributes: map<string, Attribute>, data: Data)

  const AttributeNames: set<string> := {"specversion", "id", "source", "type", "time", "data"}

  function SourceAttribute(source: Option<string>): Attribute {
    match source
    case Some(s) => Text(s)
    case None => NoneValue
  }

  /** `to_cloudevent()`: the six attributes copied from the object, and the
      data once more as the payload. */
  function ToCloudEvent(e: BaseCloudEvent): (c: CloudEvent)
    ensures c.attributes.Keys == AttributeNames
    ensures c.data == e.data
  {
    CloudEvent(
      map[
        "specversion" := Text(e.specversion),
        "id" := Text(e.id),
        "source" := SourceAttribute(e.source),
        "type" := Text(e.eventType),
        "time" := Text(e.time),
        "data" := Payload(e.data)],
      e.data)
  }

  /** Reads the event object back out of a library event, when the
      attributes have the shape `ToCloudEvent` gives them. */
  function FromCloudEvent(c: CloudEvent): Option<BaseCloudEvent> {
    var a := c.attributes;
    if && a.Keys == AttributeNames
       && a["specversion"].Text? && a["id"].Text? && a["type"].Text? && a["time"].Text?
       && !a["source"].Payload?
       && a["data"] == Payload(c.data)
    then
      var source := if a["source"].Text? then Some(a["source"].text) else None;
      Some(BaseCloudEvent(source, a["type"].text, a["specversion"].text, a["id"].text, a["time"].text, c.data))
    else None
  }

  /** Nothing of the object is lost or altered in the envelope. */
  lemma EnvelopeRoundTrip(e: BaseCloudEvent)
    ensures FromCloudEvent(ToCloudEvent(e)) == Some(e)
  {
  }

  /** The envelope of a constructed event always carries spec version "1.0"
      and the given type, id, time and data unchanged. */
  lemma EnvelopeOfNewEvent(source: string, eventType: string, data: Data, env: Env, id: string, time: string)
    ensures var c := ToCloudEvent(NewBaseCloudEvent(source, eventType, data, env, id, time));
      && c.attributes["specversion"] == Text("1.0")
      && c.attributes["type"] == Text(eventType)
      && c.attributes["id"] == Text(id)
      && c.attributes["time"] == Text(time)
      && c.attributes["data"] == Payload(data)
      && c.data == data
      && c.attributes["source"] == (if source != "" then Text(source) else SourceAttribute(GetEnv(env, ApplicationIdVariable)))
  {
  }

  const NamespaceMissing := Exception(TypeError, "unsupported operand type(s) for +: 'NoneType' and 'str'")

  /** `UserRegisteredEvent(user_details)`: the type is the application
      namespace followed by "user.registered"; the source is left empty so
      the application id from the environment is used. An unset namespace
      makes the concatenation raise. */
  function UserRegisteredEvent(details: Data, env: Env, id: string, time: string): (r: Result<BaseCloudEvent>)
    ensures r.Ok? <==> NamespaceVariable in env
    ensures r.Raise? ==> r.exc == NamespaceMissing
    ensures r.Ok? ==> && r.value.eventType == env[NamespaceVariable] + UserRegisteredSuffix
                      && r.value.source == GetEnv(env, ApplicationIdVariable)
                      && r.value.data == details
                      && r.value.specversion == SpecVersion
  {
    match GetEnv(env, NamespaceVariable)
    case None => Raise(NamespaceMissing)
    case Some(ns) => Ok(NewBaseCloudEvent("", ns + UserRegisteredSuffix, details, env, id, time))
  }
}

=== FILE: environment.dfy ===
/** The process environment as the backends read it with `os.getenv`. */
module Environment {
  import opened Errors

  /** Variable name to value; an unset variable has no entry. */
  type Env = map<string, string>

  /** `os.getenv(key)`: `None` for an unset variable; it never raises. */
  function GetEnv(env: Env, key: string): (v: Option<string>)
    ensures v.Some? <==> key in env
    ensures v.Some? ==> v.value == env[key]
  {
    if key in env then Some(env[key]) else None
  }

  /** `not os.getenv(key)` is false: the variable is set and not empty. */
  predicate IsSet(env: Env, key: string) {
    key in env && env[key] != ""
  }
}

=== FILE: errors.dfy ===
/** Python exceptions as the chat backend observes them, and the
    failure-carrying wrappers every other module returns. */
module Errors {

  /** The exception classes that can reach a caller of the modelled code. */
  datatype ExcKind =
    | PlainException        // `raise Exception(...)`
    | LookupError
    | EnvironmentError
    | IOError
    | ValueError
    | TypeError
    | AttributeError
    | NameError
    | UnboundLocalError
    | NotImplementedError

  /** A raised exception: its class and the text `str(e)` renders. */
  datatype Exception = Exception(kind: ExcKind, text: string)

  datatype Option<+T> = None | Some(value: T)

  /** A call that either returns a value or raises. */
  datatype Result<+T> = Ok(value: T) | Raise(exc: Exception)

  /** A call whose only observable result is whether it raised. */
  datatype Outcome = Pass | Fail(exc: Exception)
}

=== FILE: function_app.dfy ===
/** The HTTP functions: request parameter validation, the prompt sent to the
    backend, and the `chat`, `mock` and `ping` routes. The clock and the
    backend are inputs. */
module FunctionApp {
  import opened Errors
  import opened Text
  import opened Remote
  import OpenAIBackend
  import opened Environment

  /** A local date and time as `datetime.now()` gives it. */
  datatype DateTime = DateTime(year: nat, month: nat, day: nat, hour: nat, minute: nat, second: nat)

  predicate ValidDateTime(d: DateTime) {
    && 1 <= d.year <= 9999
    && 1 <= d.month <= 12
    && 1 <= d.day <= 31
    && d.hour < 24 && d.minute < 60 && d.second < 60
  }

  /** The times the clock can report. */
  type LocalTime = d: DateTime | ValidDateTime(d) witness DateTime(1, 1, 1, 0, 0, 0)

  /** `strftime("%Y-%m-%d %H:%M:%S")`; the year is not padded, as with the
      C library of the Linux hosts. */
  function FormatTimestamp(d: LocalTime): (s: string)
    ensures |s| == |Show(d.year)| + 15
    ensures s[..|s| - 15] == Show(d.year)
    ensures s[|s| - 15] == '-' && s[|s| - 12] == '-' && s[|s| - 9] == ' ' && s[|s| - 6] == ':' && s[|s| - 3] == ':'
  {
    Show(d.year) + FormatClock(d)
  }

  /** The fifteen characters after the year: "-MM-DD HH:MM:SS". */
  function FormatClock(d: LocalTime): (c: string)
    ensures |c| == 15
  {
    var mo, da, ho, mi, se := TwoDigit(d.month), TwoDigit(d.day), TwoDigit(d.hour), TwoDigit(d.minute), TwoDigit(d.second);
    ['-', mo[0], mo[1], '-', da[0], da[1], ' ', ho[0], ho[1], ':', mi[0], mi[1], ':', se[0], se[1]]
  }

  /** Reads a timestamp back: everything before the last fifteen characters
      is the year. */
  function ParseTimestamp(s: string): Option<DateTime> {
    if |s| < 16 || !AllDigits(s[..|s| - 15]) then None
    else
      match ParseClock(s[|s| - 15..])
      case None => None
      case Some(c) => Some(DateTime(Value(s[..|s| - 15]), c.0, c.1, c.2, c.3, c.4))
  }

  /** Reads "-MM-DD HH:MM:SS" back into month, day, hour, minute and second. */
  function ParseClock(t: string): Option<(nat, nat, nat, nat, nat)>
    requires |t| == 15
  {
    if && t[0] == '-' && t[3] == '-' && t[6] == ' ' && t[9] == ':' && t[12] == ':'
       && AllDigits(t[1..3]) && AllDigits(t[4..6]) && AllDigits(t[7..9])
       && AllDigits(t[10..12]) && AllDigits(t[13..15])
    then Some((Value(t[1..3]), Value(t[4..6]), Value(t[7..9]), Value(t[10..12]), Value(t[13..15])))
    else None
  }

  /** The timestamp in the prompt can be read back to the time it was made. */
  lemma TimestampRoundTrip(d: LocalTime)
    ensures ParseTimestamp(FormatTimestamp(d)) == Some(d)
  {
    var c := FormatClock(d);
    assert c[1..3] == TwoDigit(d.month);
    assert c[4..6] == TwoDigit(d.day);
    assert c[7..9] == TwoDigit(d.hour);
    assert c[10..12] == TwoDigit(d.minute);
    assert c[13..15] == TwoDigit(d.second);
    ValueOfTwoDigit(d.month);
    ValueOfTwoDigit(d.day);
    ValueOfTwoDigit(d.hour);
    ValueOfTwoDigit(d.minute);
    ValueOfTwoDigit(d.second);
    ValueOfShow(d.year);
    var y := Show(d.year);
    var s := FormatTimestamp(d);
    assert s[..|s| - 15] == y;
    assert s[|s| - 15..] == c;
  }

  /** A timestamp is a single line. */
  lemma TimestampHasNoNewline(d: LocalTime)
    ensures '\n' !in FormatTimestamp(d)
  {
    var s := FormatTimestamp(d);
    forall i | 0 <= i < |s| ensures s[i] != '\n' {
    }
  }

  const NameLabel := "Mein Name: "
  const TimeLabel := "\nDatum und Uhrzeit: "
  const PromptLabel := "\nMein Prompt: "

  /** The prompt sent to the backend: three labelled lines, the user's own
      prompt last and verbatim. */
  function ComposePrompt(name: string, timestamp: string, prompt: string): (p: string)
    ensures |p| == |NameLabel| + |name| + |TimeLabel| + |timestamp| + |PromptLabel| + |prompt|
    ensures StartsWith(p, NameLabel)
    ensures p[|NameLabel|..|NameLabel| + |name|] == name
    ensures p[|p| - |prompt|..] == prompt
  {
    NameLabel + name + TimeLabel + timestamp + PromptLabel + prompt
  }

  /** Reads `tag`, then the rest of that line: the line and what follows
      it, which starts with the line break if there is one. */
  function SplitLine(text: string, tag: string): Option<(string, string)> {
    if !StartsWith(text, tag) then None
    else
      var after := text[|tag|..];
      var i := IndexOf(after, '\n');
      Some((after[..i], after[i..]))
  }

  /** Splits a composed prompt at its first two line breaks. */
  function DecomposePrompt(text: string): Option<(string, string, string)> {
    match SplitLine(text, NameLabel)
    case None => None
    case Some((name, rest)) =>
      match SplitLine(rest, TimeLabel)
      case None => None
      case Some((timestamp, rest')) =>
        if StartsWith(rest', PromptLabel) then Some((name, timestamp, rest'[|PromptLabel|..])) else None
  }

  lemma IndexOfAfterLine(a: string, b: string)
    requires '\n' !in a && 0 < |b| && b[0] == '\n'
    ensures IndexOf(a + b, '\n') == |a|
  {
    assert (a + b)[|a|] == '\n';
  }

  /** A tagged single line followed by a line break splits back into the
      line and the rest. */
  lemma SplitLineOf(tag: string, line: string, more: string)
    requires '\n' !in line && 0 < |more| && more[0] == '\n'
    ensures SplitLine(tag + line + more, tag) == Some((line, more))
  {
    var text := tag + line + more;
    assert text[..|tag|] == tag;
    var after := text[|tag|..];
    assert after == line + more;
    IndexOfAfterLine(line, more);
    assert after[..|line|] == line;
    assert after[|line|..] == more;
  }

  /** Name, timestamp and prompt can be recovered from the composed text when
      the name and the timestamp are single lines; the prompt may span lines. */
  lemma PromptRoundTrip(name: string, timestamp: string, prompt: string)
    requires '\n' !in name && '\n' !in timestamp
    ensures DecomposePrompt(ComposePrompt(name, timestamp, prompt)) == Some((name, timestamp, prompt))
  {
    var last := PromptLabel + prompt;
    var more := TimeLabel + timestamp + last;
    assert ComposePrompt(name, timestamp, prompt) == NameLabel + name + more;
    SplitLineOf(NameLabel, name, more);
    SplitLineOf(TimeLabel, timestamp, last);
    assert last[..|PromptLabel|] == PromptLabel;
    assert last[|PromptLabel|..] == prompt;
  }

  /** The query parameters the routes read. */
  datatype Params = Params(name: string, email: string, prompt: string)

  /** `request.params.get(key, "")`. */
  function Param(query: map<string, string>, key: string): string {
    if key in query then query[key] else ""
  }

  const ParametersMissing := Exception(PlainException, "One or more parameters missing")

  /** `ChatRequestParams(request)`: all of Name, email and prompt must be
      present and non-empty, and are then kept verbatim. */
  function ChatRequestParams(query: map<string, string>): (r: Result<Params>)
    ensures r.Ok? <==> Param(query, "Name") != "" && Param(query, "email") != "" && Param(query, "prompt") != ""
    ensures r.Ok? ==> r.value == Params(query["Name"], query["email"], query["prompt"])
    ensures r.Raise? ==> r.exc == ParametersMissing
  {
    var p := Params(Param(query, "Name"), Param(query, "email"), Param(query, "prompt"));
    if p.name == "" || p.email == "" || p.prompt == "" then Raise(ParametersMissing) else Ok(p)
  }

  /** The bare `except:` of the routes formats `e`, which no clause binds. */
  const NameUnbound := Exception(NameError, "name 'e' is not defined")

  /** The backend's `chat(user_email, prompt)`. */
  type Backend = (string, string) -> Reply

  /** The `chat` route: `init` is what constructing the backend does, `now`
      the clock. */
  function ChatEndpoint(query: map<string, string>, now: LocalTime, init: Outcome, backend: Backend): (r: Result<Reply>)
    ensures ChatRequestParams(query).Raise? ==> r == Raise(NameUnbound)
    ensures ChatRequestParams(query).Ok? && init.Fail? ==> r == Raise(init.exc)
    ensures ChatRequestParams(query).Ok? && init.Pass? ==>
              r == Ok(backend(query["email"], ComposePrompt(query["Name"], FormatTimestamp(now), query["prompt"])))
  {
    match ChatRequestParams(query)
    case Raise(_) => Raise(NameUnbound)
    case Ok(p) =>
      if init.Fail? then Raise(init.exc)
      else Ok(backend(p.email, ComposePrompt(p.name, FormatTimestamp(now), p.prompt)))
  }

  /** The `chat` route with the error reply its `except` clause means to give. */
  function ChatEndpointIntended(query: map<string, string>, now: LocalTime, init: Outcome, backend: Backend): (r: Result<Reply>)
    ensures ChatRequestParams(query).Raise? ==> r == Ok(Reply(400, "An error has occured: " + ParametersMissing.text))
    ensures ChatRequestParams(query).Ok? ==> r == ChatEndpoint(query, now, init, backend)
  {
    match ChatRequestParams(query)
    case Raise(e) => Ok(Reply(400, "An error has occured: " + e.text))
    case Ok(_) => ChatEndpoint(query, now, init, backend)
  }

  /** As written, a request lacking a parameter never gets its 400: the route
      raises `NameError` instead. */
  lemma MissingParameterRaisesNameError(query: map<string, string>, now: LocalTime, init: Outcome, backend: Backend)
    requires "Name" !in query || "email" !in query || "prompt" !in query
    ensures ChatEndpoint(query, now, init, backend) == Raise(NameUnbound)
    ensures MockEndpoint(query) == Raise(NameUnbound)
    ensures ChatEndpointIntended(query, now, init, backend).value.code == 400
  {
  }

  /** The backend is asked with the e-mail, not the name, and its reply is
      passed on unchanged; the prompt carries name, time and text. */
  lemma ChatForwardsToBackend(query: map<string, string>, now: LocalTime, backend: Backend)
    requires ChatRequestParams(query).Ok? && '\n' !in query["Name"]
    ensures var r := ChatEndpoint(query, now, Pass, backend);
            exists prompt :: && r == Ok(backend(query["email"], prompt))
                             && DecomposePrompt(prompt) == Some((query["Name"], FormatTimestamp(now), query["prompt"]))
                             && ParseTimestamp(FormatTimestamp(now)) == Some(now)
  {
    var prompt := ComposePrompt(query["Name"], FormatTimestamp(now), query["prompt"]);
    TimestampHasNoNewline(now);
    PromptRoundTrip(query["Name"], FormatTimestamp(now), query["prompt"]);
    TimestampRoundTrip(now);
    assert ChatEndpoint(query, now, Pass, backend) == Ok(backend(query["email"], prompt));
  }

  /** Without an API key the backend is never constructed: a valid request
      to the `chat` route raises `EnvironmentError`, whatever the backend
      would have answered. */
  lemma MissingKeyRaisesBeforeBackend(query: map<string, string>, now: LocalTime, env: Env,
                                      client: Outcome, backend: Backend)
    requires ChatRequestParams(query).Ok? && !IsSet(env, OpenAIBackend.ApiKeyVariable)
    ensures ChatEndpoint(query, now, OpenAIBackend.Connect(env, client), backend).Raise?
    ensures ChatEndpoint(query, now, OpenAIBackend.Connect(env, client), backend).exc.kind == EnvironmentError
  {
  }

  /** The `mock` route: a greeting echoing name and prompt. */
  function MockEndpoint(query: map<string, string>): (r: Result<Reply>)
    ensures r.Ok? <==> ChatRequestParams(query).Ok?
    ensures r.Ok? ==> r.value.code == 200
    ensures r.Ok? ==> r.value.body == "Hello, " + query["Name"] + "! So you like to talk about " + query["prompt"]
    ensures r.Raise? ==> r.exc == NameUnbound
  {
    match ChatRequestParams(query)
    case Raise(_) => Raise(NameUnbound)
    case Ok(p) => Ok(Reply(200, "Hello, " + p.name + "! So you like to talk about " + p.prompt))
  }

  /** The `ping` route. */
  function Ping(): (r: Reply)
    ensures r.code == 200 && r.body == "pong"
  {
    Reply(200, "pong")
  }
}

=== FILE: openai_backend.dfy ===
/** The OpenAI backend wired into the HTTP app: get-or-create of the user's
    thread over the `UserThreads` table, then one chat turn. */
module OpenAIBackend {
  import opened Errors
  import opened Remote
  import opened UserThreads
  import opened ChatTurn
  import opened Environment

  const ApiKeyVariable := "OPENAI_API_KEY"
  const ApiKeyMissing := Exception(EnvironmentError, "OPENAI_API_KEY Umgebungsvariable ist nicht gesetzt.")

  /** The constructor `InteractWithOpenAI()`: an unset or empty API key
      raises `EnvironmentError` before any client is made; otherwise the
      outcome is that of constructing the client, `client`. */
  function Connect(env: Env, client: Outcome): (o: Outcome)
    ensures o.Pass? <==> IsSet(env, ApiKeyVariable) && client.Pass?
    ensures !IsSet(env, ApiKeyVariable) ==> o == Fail(ApiKeyMissing)
    ensures IsSet(env, ApiKeyVariable) ==> o == client
  {
    if !IsSet(env, ApiKeyVariable) then Fail(ApiKeyMissing) else client
  }

  /** `self.threads.set_id(...)` after `UserThreads()` itself raised: the
      attribute was never assigned. */
  const ThreadsUnset := Exception(AttributeError, "'InteractWithOpenAI' object has no attribute 'threads'")

  /** `get_or_create_thread(user_email)`: a stored id is returned as is; a
      `LookupError` leads to one new remote thread whose id is stored; every
      other failure is re-raised. A `LookupError` from constructing the
      table client lands in the same handler, which then finds no table to
      store into. */
  function GetOrCreateThread(store: Store, user: string, newThread: Result<string>): (r: Resolution)
    ensures r.thread.Ok? ==> user in r.threads && r.threads[user] == r.thread.value
    ensures CreateThread in r.effects <==> || (store.connect.Pass? && GetId(store, user).Raise?)
                                           || (store.connect.Fail? && store.connect.exc.kind == LookupError)
    ensures r.threads == store.threads || (newThread.Ok? && r.threads == store.threads[user := newThread.value])
    ensures r.thread.Ok? && CreateThread in r.effects ==>
              newThread == r.thread && r.effects == [CreateThread, StoreThread(user, newThread.value)]
    ensures |r.effects| <= 2
  {
    if store.connect.Fail? then
      if store.connect.exc.kind != LookupError then Resolution(Raise(store.connect.exc), store.threads, [])
      else
        match newThread
        case Raise(e) => Resolution(Raise(e), store.threads, [CreateThread])
        case Ok(_) => Resolution(Raise(ThreadsUnset), store.threads, [CreateThread])
    else
      match GetId(store, user)
      case Ok(id) => Resolution(Ok(id), store.threads, [])
      case Raise(lookup) =>
        if lookup.kind != LookupError then Resolution(Raise(lookup), store.threads, [])
        else
          match newThread
          case Raise(e) => Resolution(Raise(e), store.threads, [CreateThread])
          case Ok(id) =>
            match SetId(store, user, id)
            case Raise(e) => Resolution(Raise(e), store.threads, [CreateThread, StoreThread(user, id)])
            case Ok(rows) => Resolution(Ok(id), rows, [CreateThread, StoreThread(user, id)])
  }

  /** A stored id is returned and no thread is created. */
  lemma HitReturnsStoredId(store: Store, user: string, newThread: Result<string>)
    requires store.connect.Pass? && store.readable && user in store.threads
    ensures GetOrCreateThread(store, user, newThread) == Resolution(Ok(store.threads[user]), store.threads, [])
  {
  }

  /** On a miss exactly one thread is created, its id stored for the user and
      returned. */
  lemma MissCreatesOneThread(store: Store, user: string, id: string)
    requires store.connect.Pass? && !(store.readable && user in store.threads)
    requires store.upsert.Pass?
    ensures GetOrCreateThread(store, user, Ok(id))
         == Resolution(Ok(id), store.threads[user := id], [CreateThread, StoreThread(user, id)])
  {
  }

  /** A failure to reach the table, to create the thread or to store its id
      is re-raised unchanged, and the rows stay as they were. */
  lemma FailuresPropagate(store: Store, user: string, newThread: Result<string>)
    ensures var r := GetOrCreateThread(store, user, newThread);
            && (store.connect.Fail? && store.connect.exc.kind != LookupError
                ==> r == Resolution(Raise(store.connect.exc), store.threads, []))
            && (store.connect.Pass? && GetId(store, user).Raise? && newThread.Raise?
                ==> r == Resolution(Raise(newThread.exc), store.threads, [CreateThread]))
            && (store.connect.Pass? && GetId(store, user).Raise? && newThread.Ok? && store.upsert.Fail?
                ==> r.thread == Raise(ThreadPersistenceFailed) && r.threads == store.threads)
  {
  }

  /** A constructor failure of the `LookupError` family is taken for a miss:
      a thread is created, then storing its id fails because the table
      attribute was never set, so the new thread is orphaned. */
  lemma ConnectLookupErrorOrphansThread(store: Store, user: string, id: string)
    requires store.connect.Fail? && store.connect.exc.kind == LookupError
    ensures GetOrCreateThread(store, user, Ok(id)) == Resolution(Raise(ThreadsUnset), store.threads, [CreateThread])
  {
  }

  /** Once a call has returned an id, the next call for the same user returns
      the same id and creates nothing. */
  lemma SecondCallHits(store: Store, user: string, first: Result<string>, second: Result<string>, next: Store)
    requires GetOrCreateThread(store, user, first).thread.Ok?
    requires next.connect.Pass? && next.readable
    requires next.threads == GetOrCreateThread(store, user, first).threads
    ensures var r := GetOrCreateThread(store, user, first);
            GetOrCreateThread(next, user, second) == Resolution(r.thread, r.threads, [])
  {
  }

  /** `get_id` reports an unreachable table as a miss, so a user who already
      has a thread is given a new one that replaces the stored id. */
  lemma UnreadableTableReplacesThread(store: Store, user: string, id: string)
    requires store.connect.Pass? && !store.readable && user in store.threads
    requires store.upsert.Pass?
    ensures var r := GetOrCreateThread(store, user, Ok(id));
            r.thread == Ok(id) && r.threads[user] == id && CreateThread in r.effects
  {
  }

  /** `chat(user_email, prompt)`: the turn runs on the thread resolved for
      the e-mail. */
  function Chat(store: Store, user: string, prompt: string, service: Service): (t: Turn)
    ensures t.reply.Some? ==> t.reply.value.code in {200, 500, 509}
    ensures t.threads == store.threads || (service.newThread.Ok? && t.threads == store.threads[user := service.newThread.value])
    ensures store.connect.Fail? && store.connect.exc.kind != LookupError ==>
              t == Turn(Some(Reply(509, IssueBody(store.connect.exc.text))), store.threads, [])
  {
    Converse(GetOrCreateThread(store, user, service.newThread), prompt, service)
  }
}

=== FILE: publisher.dfy ===
/** `EventGridPublisher`: derives a factory name from an event type, builds
    the event with that factory and sends it as a one-element batch; a
    failed send is logged and swallowed. The client itself exists only
    inside an `async with` block. */
module Publisher {
  import opened Errors
  import opened Text
  import CloudEvents
  import opened Environment

  const FactoryPrefix := "create_"
  const FactorySuffix := "_event"

  /** The factory method name for an event type: every "." becomes "_". */
  function FactoryName(eventType: string): (name: string)
    ensures |name| == |eventType| + |FactoryPrefix| + |FactorySuffix|
    ensures StartsWith(name, FactoryPrefix)
    ensures name[|name| - |FactorySuffix|..] == FactorySuffix
    ensures forall i :: 0 <= i < |eventType| ==>
              name[|FactoryPrefix| + i] == (if eventType[i] == '.' then '_' else eventType[i])
    ensures forall i :: 0 <= i < |name| ==> name[i] != '.'
  {
    FactoryPrefix + ReplaceChar(eventType, '.', '_') + FactorySuffix
  }

  /** Recovers the event type from a factory name, reading every "_" of the
      middle part as a ".". */
  function EventTypeOf(name: string): string
    requires |FactoryPrefix| + |FactorySuffix| <= |name|
  {
    ReplaceChar(name[|FactoryPrefix|..|name| - |FactorySuffix|], '_', '.')
  }

  /** For event types without underscores the factory name determines the
      event type. */
  lemma FactoryNameInverse(eventType: string)
    requires forall i :: 0 <= i < |eventType| ==> eventType[i] != '_'
    ensures EventTypeOf(FactoryName(eventType)) == eventType
  {
    var name := FactoryName(eventType);
    var middle := name[|FactoryPrefix|..|name| - |FactorySuffix|];
    assert middle == ReplaceChar(eventType, '.', '_');
    assert EventTypeOf(name) == eventType by {
      forall i | 0 <= i < |eventType| ensures EventTypeOf(name)[i] == eventType[i] {
        assert middle[i] == (if eventType[i] == '.' then '_' else eventType[i]);
      }
    }
  }

  /** Two types that differ only in "." against "_" share one factory. */
  lemma FactoryNameConflatesDots()
    ensures FactoryName("user.registered") == FactoryName("user_registered")
    ensures FactoryName("user.registered") == "create_user_registered_event"
  {
  }

  /** A factory method of the event class: event details to library
      event, or the exception building the event raises. */
  type Factory = CloudEvents.Data -> Result<CloudEvents.CloudEvent>

  /** What `send_event` hands to the client, and whether the client accepted it. */
  datatype Delivery = Delivery(batch: seq<CloudEvents.CloudEvent>, delivered: bool)

  function FactoryMissing(eventType: string): Exception {
    Exception(ValueError, "EventGridPublisher: Event factory method for " + eventType + " not found.")
  }

  /** `send_event(event_type, details)` against the class attributes
      `factories`; `send` is what the network send does. Building the event
      is outside the `try`, so its exception reaches the caller; only the
      send's failure is swallowed. */
  function SendEvent(factories: map<string, Factory>, eventType: string, details: CloudEvents.Data, send: Outcome): (r: Result<Delivery>)
    ensures FactoryName(eventType) !in factories ==> r == Raise(FactoryMissing(eventType))
    ensures r.Raise? && FactoryName(eventType) in factories ==> factories[FactoryName(eventType)](details) == Raise(r.exc)
    ensures r.Ok? <==> FactoryName(eventType) in factories && factories[FactoryName(eventType)](details).Ok?
    ensures r.Ok? ==> r.value.batch == [factories[FactoryName(eventType)](details).value]
    ensures r.Ok? ==> (r.value.delivered <==> send.Pass?)
  {
    var name := FactoryName(eventType);
    if name !in factories then Raise(FactoryMissing(eventType))
    else
      match factories[name](details)
      case Raise(e) => Raise(e)
      case Ok(event) => Ok(Delivery([event], send.Pass?))
  }

  /** The shown event class declares `__init__` and `to_cloudevent` and
      inherits only dunder attributes: no attribute starts with "create_",
      so every `send_event` against it raises before sending. */
  lemma NoFactoryInEventClass(factories: map<string, Factory>, eventType: string, details: CloudEvents.Data, send: Outcome)
    requires forall k :: k in factories ==> !StartsWith(k, FactoryPrefix)
    ensures SendEvent(factories, eventType, details, send) == Raise(FactoryMissing(eventType))
  {
  }

  /** The parameters of `send_event` after `self`. */
  const SendEventParameters: seq<string> := ["event_type", "details"]

  function UnexpectedKeyword(k: string): Exception {
    Exception(TypeError, "EventGridPublisher.send_event() got an unexpected keyword argument '" + k + "'")
  }

  /** The `TypeError` for parameters left without a value, named in
      declaration order. */
  function MissingArguments(keywords: seq<string>): (e: Exception)
    ensures e.kind == TypeError
  {
    var prefix := "EventGridPublisher.send_event() missing ";
    if "event_type" !in keywords && "details" !in keywords then
      Exception(TypeError, prefix + "2 required positional arguments: 'event_type' and 'details'")
    else if "event_type" !in keywords then
      Exception(TypeError, prefix + "1 required positional argument: 'event_type'")
    else
      Exception(TypeError, prefix + "1 required positional argument: 'details'")
  }

  /** The first keyword that names no parameter, if any. */
  function FirstUnexpected(keywords: seq<string>): (k: Option<string>)
    ensures k.None? <==> forall i :: 0 <= i < |keywords| ==> keywords[i] in SendEventParameters
    ensures k.Some? ==> k.value in keywords && k.value !in SendEventParameters
  {
    if |keywords| == 0 then None
    else if keywords[0] !in SendEventParameters then Some(keywords[0])
    else FirstUnexpected(keywords[1..])
  }

  /** Binding a call `send_event(k1=..., k2=...)` made with keyword arguments
      only: an unknown keyword raises `TypeError` when the call is made (for
      an `async def`, before any coroutine exists), and so does a parameter
      left without a value. */
  function BindSendEvent(keywords: seq<string>): (o: Outcome)
    ensures o.Pass? <==> && (forall i :: 0 <= i < |keywords| ==> keywords[i] in SendEventParameters)
                          && (forall p :: p in SendEventParameters ==> p in keywords)
    ensures o.Fail? ==> o.exc.kind == TypeError
  {
    match FirstUnexpected(keywords)
    case Some(k) => Fail(UnexpectedKeyword(k))
    case None =>
      if forall p :: p in SendEventParameters ==> p in keywords then Pass else Fail(MissingArguments(keywords))
  }

  /** The call `send_event(event=...)` binds no parameter of that name. */
  lemma EventKeywordRejected()
    ensures BindSendEvent(["event"]) == Fail(UnexpectedKeyword("event"))
  {
  }

  const AccessKeyVariable := "EVENT_GRID_ACCESS_KEY"
  const KeyNotString := Exception(TypeError, "key must be a string.")

  /** `EventGridPublisher()`: the credential is made from the access key,
      and a missing key (`None`) is rejected with `TypeError`, which the
      `except KeyError` does not catch. */
  function NewPublisher(env: Env): (o: Outcome)
    ensures o.Pass? <==> AccessKeyVariable in env
    ensures o.Fail? ==> o == Fail(KeyNotString)
  {
    if AccessKeyVariable in env then Pass else Fail(KeyNotString)
  }

  /** Which `with` statement enters a context manager. */
  datatype WithKind = SyncWith | AsyncWith

  /** `EventGridPublisher` defines `__aenter__`/`__aexit__` only. */
  const PublisherProtocols: set<WithKind> := {AsyncWith}

  /** Entering a `with` block on an `EventGridPublisher`: Python raises
      `TypeError` when the class lacks the methods of that kind of block. */
  function EnterPublisher(kind: WithKind): (o: Outcome)
    ensures o.Pass? <==> kind in PublisherProtocols
    ensures o.Fail? ==> o.exc.kind == TypeError
  {
    if kind in PublisherProtocols then Pass
    else if kind == AsyncWith then
      Fail(Exception(TypeError, "'EventGridPublisher' object does not support the asynchronous context manager protocol"))
    else
      Fail(Exception(TypeError, "'EventGridPublisher' object does not support the context manager protocol"))
  }

  const NoSyncProtocol := Exception(TypeError, "'EventGridPublisher' object does not support the context manager protocol")

  /** A plain `with EventGridPublisher()` always raises; `async with` enters. */
  lemma OnlyAsyncWithEnters()
    ensures EnterPublisher(SyncWith) == Fail(NoSyncProtocol)
    ensures EnterPublisher(AsyncWith) == Pass
  {
  }
}

=== FILE: pyint.dfy ===
/** Python's `int(text)` in base 10: surrounding whitespace is stripped, an
    optional sign is followed by at most 4300 decimal digits, and single
    underscores may separate digits. Anything else raises `ValueError`,
    modelled as `None`. */
module PyInt {
  import opened Errors
  import opened Text

  /** The code points `int()` strips from its argument: ASCII space and
      `\t` to `\r`, and the non-ASCII Unicode whitespace, which CPython
      first turns into spaces. The ASCII separators U+001C to U+001F are
      Unicode whitespace too but are kept, so they make `int()` fail. */
  predicate IsPySpace(c: char) {
    || c == ' '
    || '\t' <= c <= '\r'
    || c == '\U{85}' || c == '\U{A0}' || c == '\U{1680}'
    || '\U{2000}' <= c <= '\U{200A}'
    || c == '\U{2028}' || c == '\U{2029}' || c == '\U{202F}' || c == '\U{205F}' || c == '\U{3000}'
  }

  function TrimLeft(s: string): (r: string)
    ensures |r| <= |s|
    ensures r == s[|s| - |r|..]
    ensures |r| > 0 ==> !IsPySpace(r[0])
    ensures forall i :: 0 <= i < |s| - |r| ==> IsPySpace(s[i])
  {
    if |s| > 0 && IsPySpace(s[0]) then TrimLeft(s[1..]) else s
  }

  function TrimRight(s: string): (r: string)
    ensures |r| <= |s|
    ensures r == s[..|r|]
    ensures |r| > 0 ==> !IsPySpace(r[|r| - 1])
    ensures forall i :: |r| <= i < |s| ==> IsPySpace(s[i])
  {
    if |s| > 0 && IsPySpace(s[|s| - 1]) then TrimRight(s[..|s| - 1]) else s
  }

  function Strip(s: string): string {
    TrimRight(TrimLeft(s))
  }

  /** Python's digit grammar for base 10: digit ("_"? digit)*. */
  predicate WellGrouped(t: string) {
    && 0 < |t|
    && IsDigit(t[0])
    && IsDigit(t[|t| - 1])
    && (forall i :: 0 <= i < |t| ==> IsDigit(t[i]) || t[i] == '_')
    && (forall i :: 0 <= i < |t| - 1 ==> t[i] != '_' || t[i + 1] != '_')
  }

  function DropUnderscores(t: string): (d: string)
    requires forall i :: 0 <= i < |t| ==> IsDigit(t[i]) || t[i] == '_'
    ensures AllDigits(d)
    ensures AllDigits(t) ==> d == t
  {
    if |t| == 0 then []
    else if t[0] == '_' then DropUnderscores(t[1..])
    else [t[0]] + DropUnderscores(t[1..])
  }

  /** The default of `sys.set_int_max_str_digits`: `int()` rejects a
      decimal string with more digits, and `str()` an integer with more. */
  const MaxStrDigits := 4300

  /** The digits after an optional sign; underscores do not count towards
      the digit limit. */
  function ParseDigits(t: string): Option<nat> {
    if WellGrouped(t) && |DropUnderscores(t)| <= MaxStrDigits then Some(Value(DropUnderscores(t))) else None
  }

  predicate IsSign(c: char) {
    c == '+' || c == '-'
  }

  /** `int(s)`: `Some(value)` when Python returns one, `None` when it raises
      `ValueError`. */
  function ParseInt(s: string): (r: Option<int>)
    ensures (forall i :: 0 <= i < |s| ==> !IsDigit(s[i])) ==> r.None?
  {
    ParseStripped(Strip(s))
  }

  /** `int()` on an argument without surrounding whitespace. */
  function ParseStripped(t: string): (r: Option<int>)
    ensures (forall i :: 0 <= i < |t| ==> !IsDigit(t[i])) ==> r.None?
  {
    if |t| > 0 && IsSign(t[0]) then
      match ParseDigits(t[1..])
      case None => None
      case Some(m) => Some(if t[0] == '-' then -(m as int) else m as int)
    else
      match ParseDigits(t)
      case None => None
      case Some(m) => Some(m)
  }

  /** Python's grammar for a base-10 integer literal, read against a
      stripped argument: an optional sign, then well-grouped digits, at most
      `MaxStrDigits` of them, whose value is the magnitude of `n`, negated
      after a minus sign. */
  predicate Spells(t: string, sign: string, digits: string, n: int) {
    && t == sign + digits
    && (sign == "" || sign == "+" || sign == "-")
    && WellGrouped(digits)
    && |DropUnderscores(digits)| <= MaxStrDigits
    && n == (if sign == "-" then -(Value(DropUnderscores(digits)) as int) else Value(DropUnderscores(digits)))
  }

  /** `int(s)` returns `n` exactly when the stripped argument spells `n`;
      every other argument raises. */
  lemma ParseIntExactly(s: string, n: int)
    ensures ParseInt(s) == Some(n) <==> exists sign, digits :: Spells(Strip(s), sign, digits, n)
  {
    if ParseInt(s) == Some(n) {
      var sign, digits := ParsedSpelling(s, n);
    }
    if exists sign, digits :: Spells(Strip(s), sign, digits, n) {
      var sign, digits :| Spells(Strip(s), sign, digits, n);
      SpellingParses(s, sign, digits, n);
    }
  }

  lemma ParsedSpelling(s: string, n: int) returns (sign: string, digits: string)
    requires ParseInt(s) == Some(n)
    ensures Spells(Strip(s), sign, digits, n)
  {
    sign, digits := StrippedSpelling(Strip(s), n);
  }

  lemma StrippedSpelling(t: string, n: int) returns (sign: string, digits: string)
    requires ParseStripped(t) == Some(n)
    ensures Spells(t, sign, digits, n)
  {
    if |t| > 0 && IsSign(t[0]) {
      sign, digits := t[..1], t[1..];
    } else {
      sign, digits := "", t;
    }
    assert t == sign + digits;
  }

  lemma SpellingParses(s: string, sign: string, digits: string, n: int)
    requires Spells(Strip(s), sign, digits, n)
    ensures ParseInt(s) == Some(n)
  {
    SpellingParsesStripped(Strip(s), sign, digits, n);
  }

  lemma SpellingParsesStripped(t: string, sign: string, digits: string, n: int)
    requires Spells(t, sign, digits, n)
    ensures ParseStripped(t) == Some(n)
  {
    assert ParseDigits(digits) == Some(Value(DropUnderscores(digits)));
    if sign == "" {
      assert t == digits;
      assert !IsSign(t[0]);
    } else {
      assert t[0] == sign[0] && IsSign(t[0]);
      assert t[1..] == digits;
      assert t[0] == '-' <==> sign == "-";
    }
  }

  /** A separator character before the digits is not stripped. */
  lemma SeparatorNotStripped()
    ensures ParseInt("\U{1C}1").None?
  {
    var s := "\U{1C}1";
    assert !IsPySpace(s[0]) && !IsPySpace(s[1]);
    assert TrimLeft(s) == s;
    assert TrimRight(s) == s;
    assert !IsSign(s[0]) && !WellGrouped(s);
    assert ParseStripped(s).None?;
  }

  /** `str(n)` for an integer; see `Renderable` for where Python renders it. */
  function ShowInt(n: int): string {
    if n < 0 then "-" + Show(-n) else Show(n)
  }

  /** `str(n)` raises `ValueError` beyond `MaxStrDigits` digits. */
  predicate Renderable(n: int) {
    |Show(if n < 0 then -n else n)| <= MaxStrDigits
  }

  /** Python's `int(str(n)) == n`, for every integer `str` renders. */
  lemma ParseShowRoundTrip(n: int)
    requires Renderable(n)
    ensures ParseInt(ShowInt(n)) == Some(n)
  {
    var m: nat := if n < 0 then -n else n;
    var s := ShowInt(n);
    StripLeavesShow(n);
    ShowParses(m);
    if n < 0 {
      assert s[0] == '-' && s[1..] == Show(m);
    } else {
      assert s == Show(m) && IsDigit(s[0]);
    }
    assert ParseStripped(s) == Some(n);
  }

  lemma StripLeavesShow(n: int)
    ensures Strip(ShowInt(n)) == ShowInt(n)
  {
    var s := ShowInt(n);
    assert !IsPySpace(s[0]);
    assert TrimLeft(s) == s;
    assert !IsPySpace(s[|s| - 1]) by {
      if n < 0 { assert s[|s| - 1] == Show(-n)[|Show(-n)| - 1]; }
    }
    assert TrimRight(s) == s;
  }

  lemma ShowParses(m: nat)
    requires |Show(m)| <= MaxStrDigits
    ensures ParseDigits(Show(m)) == Some(m)
  {
    var d := Show(m);
    assert WellGrouped(d);
    assert DropUnderscores(d) == d;
    ValueOfShow(m);
  }
}

=== FILE: remote.dfy ===
/** The assistant service as one chat turn observes it, and the record of
    the calls a turn makes. */
module Remote {
  import opened Errors
  import CloudEvents

  /** One block of a message's content; only text blocks have `.text`. */
  datatype ContentBlock = TextBlock(value: string) | OtherBlock(className: string)

  /** A thread message; listings come newest first. */
  datatype Message = Message(content: seq<ContentBlock>)

  /** What the service answers to each call of one turn: creating a thread,
      appending the message, creating the run, each successive status
      retrieval, and listing the thread's messages. */
  datatype Service = Service(
    newThread: Result<string>,
    append: Outcome,
    newRun: Result<string>,
    polls: seq<Result<string>>,
    listing: Result<seq<Message>>)

  /** A call a turn makes to the store, the service or the event bus. */
  datatype Effect =
    | CreateThread
    | StoreThread(user: string, threadId: string)
    | Publish(event: CloudEvents.CloudEvent)
    | AppendMessage(threadId: string, content: string)
    | StartRun(threadId: string)
    | RetrieveRun(threadId: string, runId: string)
    | ListMessages(threadId: string)

  /** An HTTP status code and response body. */
  datatype Reply = Reply(code: int, body: string)
}

=== FILE: store.dfy ===
/** `UserThreads`: the "UserThreads" table that maps a user's e-mail to the
    id of their conversation thread on the assistant service. */
module UserThreads {
  import opened Errors

  /** The table as one turn sees it. */
  datatype Store = Store(
    connect: Outcome,               // what constructing `UserThreads()` does
    threads: map<string, string>,   // e-mail -> thread id
    readable: bool,                 // whether `get_entity` reaches the table
    upsert: Outcome)                // what `upsert_entity` does

  const ThreadNotFound := Exception(LookupError, "ThreadNotFound")
  const ThreadPersistenceFailed := Exception(IOError, "ThreadPersistenceFailed")

  /** `get_id`: every failure of the read, a missing row included, becomes
      `LookupError("ThreadNotFound")`. */
  function GetId(store: Store, user: string): (r: Result<string>)
    ensures r.Ok? <==> store.readable && user in store.threads
    ensures r.Ok? ==> r.value == store.threads[user]
    ensures r.Raise? ==> r.exc == ThreadNotFound
  {
    if store.readable && user in store.threads then Ok(store.threads[user]) else Raise(ThreadNotFound)
  }

  /** `set_id`: an upsert of the user's row; a failed upsert becomes
      `IOError("ThreadPersistenceFailed")`. Returns the rows afterwards. */
  function SetId(store: Store, user: string, threadId: string): (r: Result<map<string, string>>)
    ensures r.Ok? <==> store.upsert.Pass?
    ensures r.Ok? ==> r.value.Keys == store.threads.Keys + {user}
    ensures r.Ok? ==> r.value[user] == threadId
    ensures r.Ok? ==> forall u :: u in store.threads && u != user ==> r.value[u] == store.threads[u]
    ensures r.Raise? ==> r.exc == ThreadPersistenceFailed
  {
    if store.upsert.Pass? then Ok(store.threads[user := threadId]) else Raise(ThreadPersistenceFailed)
  }
}

=== FILE: text.dfy ===
/** Decimal rendering and reading of naturals, and the few string
    operations the backend's templates and name mangling rely on. */
module Text {

  predicate IsDigit(c: char) {
    '0' <= c <= '9'
  }

  predicate AllDigits(s: string) {
    forall i :: 0 <= i < |s| ==> IsDigit(s[i])
  }

  function DigitChar(d: nat): (c: char)
    requires d < 10
    ensures IsDigit(c)
  {
    (48 + d) as char
  }

  function DigitValue(c: char): (d: nat)
    requires IsDigit(c)
    ensures d < 10
  {
    (c as int) - 48
  }

  /** Value of a digit string read most-significant first (leading zeros allowed). */
  function Value(s: string): nat
    requires AllDigits(s)
  {
    if |s| == 0 then 0 else Value(s[..|s| - 1]) * 10 + DigitValue(s[|s| - 1])
  }

  /** Decimal rendering without leading zeros, as Python's `str(n)` and `%d`. */
  function Show(n: nat): (s: string)
    ensures 0 < |s|
    ensures AllDigits(s)
  {
    if n < 10 then [DigitChar(n)] else Show(n / 10) + [DigitChar(n % 10)]
  }

  /** `%02d` for a number below 100. */
  function TwoDigit(n: nat): (s: string)
    requires n < 100
    ensures |s| == 2 && AllDigits(s)
  {
    [DigitChar(n / 10), DigitChar(n % 10)]
  }

  /** Reading back a rendering gives the number. */
  lemma {:induction false} ValueOfShow(n: nat)
    ensures Value(Show(n)) == n
  {
    if n >= 10 {
      var s := Show(n);
      assert s[..|s| - 1] == Show(n / 10);
      ValueOfShow(n / 10);
      assert DigitValue(s[|s| - 1]) == n % 10;
    }
  }

  lemma ValueOfTwoDigit(n: nat)
    requires n < 100
    ensures Value(TwoDigit(n)) == n
  {
    var s := TwoDigit(n);
    assert s[..1] == [DigitChar(n / 10)];
    assert s[..1][..0] == [];
    assert Value(s[..1]) == n / 10;
    assert Value(s) == Value(s[..1]) * 10 + n % 10;
  }

  /** `s.replace(from, to)` for single characters. */
  function ReplaceChar(s: string, from: char, to: char): (r: string)
    ensures |r| == |s|
    ensures forall i :: 0 <= i < |s| ==> r[i] == (if s[i] == from then to else s[i])
  {
    if |s| == 0 then [] else ReplaceChar(s[..|s| - 1], from, to) + [if s[|s| - 1] == from then to else s[|s| - 1]]
  }

  predicate StartsWith(s: string, prefix: string) {
    |prefix| <= |s| && s[..|prefix|] == prefix
  }

  /** Position of the first `c` in `s`, or |s| when there is none. */
  function IndexOf(s: string, c: char): (k: nat)
    ensures k <= |s|
    ensures k < |s| ==> s[k] == c
    ensures forall i :: 0 <= i < k ==> s[i] != c
  {
    if |s| == 0 then 0 else if s[0] == c then 0 else 1 + IndexOf(s[1..], c)
  }
}

=== FILE: tools.dfy ===
/** `AssistantTools`: runs the tool calls a run asks for by looking each
    function name up among the tool methods, and the one tool the assistant
    can call, `set_read_along`, which switches a user's read-along setting. */
module AssistantTools {
  import opened Errors
  import opened PyInt

  /** The JSON argument string of a call: decoded to named string arguments,
      or not decodable (with the decoder's message). */
  datatype Arguments = Decoded(named: map<string, string>) | Malformed(reason: string)

  datatype ToolCall = ToolCall(id: string, kind: string, name: string, arguments: Arguments)

  /** The record `{"tool_call_id": ..., "output": ...}` put on the queue. */
  datatype ToolOutput = ToolOutput(toolCallId: string, output: string)

  /** A tool method, called with the decoded arguments as keywords. */
  type Handler = map<string, string> -> Result<string>

  /** Enqueuing `result` when no branch assigned it. */
  const ResultUnbound := Exception(UnboundLocalError, "cannot access local variable 'result' where it is not associated with a value")

  function Unsupported(kind: string): Exception {
    Exception(NotImplementedError, "Tool Call type " + kind + " is not supported yet.")
  }

  /** `_handle_tool_call`: only calls of type "function" are handled. A
      found method that returns gives one output tagged with the call id; an
      unknown name or a raising method leaves `result` unbound, so the
      enqueue itself raises. */
  function HandleToolCall(call: ToolCall, handlers: map<string, Handler>): (r: Result<ToolOutput>)
    ensures r.Ok? <==> && call.kind == "function" && call.arguments.Decoded? && call.name in handlers
                       && handlers[call.name](call.arguments.named).Ok?
    ensures r.Ok? ==> r.value == ToolOutput(call.id, handlers[call.name](call.arguments.named).value)
    ensures call.kind != "function" ==> r == Raise(Unsupported(call.kind))
    ensures call.kind == "function" && call.arguments.Decoded? && r.Raise? ==> r.exc == ResultUnbound
  {
    if call.kind != "function" then Raise(Unsupported(call.kind))
    else
      match call.arguments
      case Malformed(reason) => Raise(Exception(ValueError, reason))
      case Decoded(args) =>
        if call.name !in handlers then Raise(ResultUnbound)
        else
          match handlers[call.name](args)
          case Ok(v) => Ok(ToolOutput(call.id, v))
          case Raise(_) => Raise(ResultUnbound)
  }

  /** `execute_tool_calls`: every call is handled and the outputs collected;
      an exception of any call reaches the caller through `gather`. The
      calls run one after another here, in list order. */
  function ExecuteToolCalls(calls: seq<ToolCall>, handlers: map<string, Handler>): (r: Result<seq<ToolOutput>>)
    ensures r.Ok? <==> forall i :: 0 <= i < |calls| ==> HandleToolCall(calls[i], handlers).Ok?
    ensures r.Ok? ==> |r.value| == |calls|
    ensures r.Ok? ==> forall i :: 0 <= i < |calls| ==> HandleToolCall(calls[i], handlers) == Ok(r.value[i])
    ensures r.Raise? ==> exists i :: 0 <= i < |calls| && HandleToolCall(calls[i], handlers) == Raise(r.exc)
  {
    if |calls| == 0 then Ok([])
    else
      match HandleToolCall(calls[0], handlers)
      case Raise(e) => Raise(e)
      case Ok(first) =>
        match ExecuteToolCalls(calls[1..], handlers)
        case Raise(e) => Raise(e)
        case Ok(rest) => Ok([first] + rest)
  }

  function CallIds(calls: seq<ToolCall>): (ids: seq<string>)
    ensures |ids| == |calls|
  {
    seq(|calls|, i requires 0 <= i < |calls| => calls[i].id)
  }

  function OutputIds(outputs: seq<ToolOutput>): (ids: seq<string>)
    ensures |ids| == |outputs|
  {
    seq(|outputs|, i requires 0 <= i < |outputs| => outputs[i].toolCallId)
  }

  /** When every call succeeds there is exactly one output per call, tagged
      with that call's id. */
  lemma OneOutputPerCall(calls: seq<ToolCall>, handlers: map<string, Handler>)
    requires ExecuteToolCalls(calls, handlers).Ok?
    ensures multiset(OutputIds(ExecuteToolCalls(calls, handlers).value)) == multiset(CallIds(calls))
  {
    var outs := ExecuteToolCalls(calls, handlers).value;
    assert OutputIds(outs) == CallIds(calls) by {
      forall i | 0 <= i < |calls| ensures OutputIds(outs)[i] == CallIds(calls)[i] {
        assert HandleToolCall(calls[i], handlers) == Ok(outs[i]);
      }
    }
  }

  /** Each call's own result, in call order. */
  function Handled(calls: seq<ToolCall>, handlers: map<string, Handler>): (rs: seq<Result<ToolOutput>>)
    ensures |rs| == |calls|
    ensures forall i :: 0 <= i < |calls| ==> rs[i] == HandleToolCall(calls[i], handlers)
  {
    if |calls| == 0 then [] else [HandleToolCall(calls[0], handlers)] + Handled(calls[1..], handlers)
  }

  lemma HandledOfConcat(a: seq<ToolCall>, b: seq<ToolCall>, handlers: map<string, Handler>)
    ensures Handled(a + b, handlers) == Handled(a, handlers) + Handled(b, handlers)
  {
    var whole := Handled(a + b, handlers);
    var parts := Handled(a, handlers) + Handled(b, handlers);
    forall i | 0 <= i < |whole| ensures whole[i] == parts[i] {
      if i < |a| {
        assert (a + b)[i] == a[i];
      } else {
        assert (a + b)[i] == b[i - |a|];
      }
    }
  }

  /** Taking one element out of two equal multisets of calls leaves equal multisets. */
  lemma RemoveMatching(calls: seq<ToolCall>, other: seq<ToolCall>, j: nat)
    requires multiset(calls) == multiset(other)
    requires 0 < |calls| && j < |other| && other[j] == calls[0]
    ensures multiset(calls[1..]) == multiset(other[..j] + other[j + 1..])
  {
    var c, before, after := calls[0], other[..j], other[j + 1..];
    assert other == before + [c] + after;
    assert calls == [c] + calls[1..];
    forall x ensures multiset(calls[1..])[x] == multiset(before + after)[x] {
      assert multiset(calls)[x] == multiset([c])[x] + multiset(calls[1..])[x];
      assert multiset(other)[x] == multiset(before)[x] + multiset([c])[x] + multiset(after)[x];
      assert multiset(before + after)[x] == multiset(before)[x] + multiset(after)[x];
    }
  }

  /** The results of a sequence of calls are the result of one of them plus
      those of the rest. */
  lemma HandledWithout(other: seq<ToolCall>, j: nat, handlers: map<string, Handler>)
    requires j < |other|
    ensures multiset(Handled(other, handlers))
         == multiset([HandleToolCall(other[j], handlers)]) + multiset(Handled(other[..j] + other[j + 1..], handlers))
  {
    var c, before, after := other[j], other[..j], other[j + 1..];
    assert other == before + ([c] + after);
    HandledOfConcat(before, [c] + after, handlers);
    HandledOfConcat([c], after, handlers);
    HandledOfConcat(before, after, handlers);
    assert Handled([c], handlers) == [HandleToolCall(c, handlers)];
  }

  /** Reordering the calls of a run reorders their results and nothing more:
      the multiset of per-call results does not depend on the order. */
  lemma {:induction false} HandledIsOrderIndependent(calls: seq<ToolCall>, other: seq<ToolCall>, handlers: map<string, Handler>)
    requires multiset(calls) == multiset(other)
    ensures multiset(Handled(calls, handlers)) == multiset(Handled(other, handlers))
    decreases |calls|
  {
    if |calls| == 0 {
      assert |other| == 0;
    } else {
      assert calls[0] in multiset(other);
      var j :| 0 <= j < |other| && other[j] == calls[0];
      RemoveMatching(calls, other, j);
      HandledIsOrderIndependent(calls[1..], other[..j] + other[j + 1..], handlers);
      HandledWithout(other, j, handlers);
      HandledWithout(calls, 0, handlers);
      assert calls[..0] + calls[1..] == calls[1..];
    }
  }

  predicate AllOk(rs: seq<Result<ToolOutput>>) {
    forall i :: 0 <= i < |rs| ==> rs[i].Ok?
  }

  lemma AllOkOfSameMultiset(a: seq<Result<ToolOutput>>, b: seq<Result<ToolOutput>>)
    requires multiset(a) == multiset(b)
    ensures AllOk(a) ==> AllOk(b)
  {
    if AllOk(a) {
      forall i | 0 <= i < |b| ensures b[i].Ok? {
        assert b[i] in multiset(a);
      }
    }
  }

  /** Reordering the calls changes neither whether the batch succeeds nor,
      when it does, the multiset of outputs. */
  lemma BatchIsOrderIndependent(calls: seq<ToolCall>, other: seq<ToolCall>, handlers: map<string, Handler>)
    requires multiset(calls) == multiset(other)
    ensures ExecuteToolCalls(calls, handlers).Ok? <==> ExecuteToolCalls(other, handlers).Ok?
    ensures ExecuteToolCalls(calls, handlers).Ok? ==>
              multiset(ExecuteToolCalls(calls, handlers).value) == multiset(ExecuteToolCalls(other, handlers).value)
  {
    HandledIsOrderIndependent(calls, other, handlers);
    var hs, ho := Handled(calls, handlers), Handled(other, handlers);
    AllOkOfSameMultiset(hs, ho);
    AllOkOfSameMultiset(ho, hs);
    assert ExecuteToolCalls(calls, handlers).Ok? <==> AllOk(hs);
    assert ExecuteToolCalls(other, handlers).Ok? <==> AllOk(ho);
    if ExecuteToolCalls(calls, handlers).Ok? {
      var oc, oo := ExecuteToolCalls(calls, handlers).value, ExecuteToolCalls(other, handlers).value;
      assert hs == Wrap(oc);
      assert ho == Wrap(oo);
      WrapMultiset(oc, oo);
    }
  }

  function Wrap(outputs: seq<ToolOutput>): (rs: seq<Result<ToolOutput>>)
    ensures |rs| == |outputs|
    ensures forall i :: 0 <= i < |outputs| ==> rs[i] == Ok(outputs[i])
  {
    if |outputs| == 0 then [] else [Ok(outputs[0])] + Wrap(outputs[1..])
  }

  lemma {:induction false} CountOfWrap(a: seq<ToolOutput>, x: ToolOutput)
    ensures multiset(Wrap(a))[Ok(x)] == multiset(a)[x]
    decreases |a|
  {
    if |a| > 0 {
      assert a == [a[0]] + a[1..];
      assert Wrap(a) == [Ok(a[0])] + Wrap(a[1..]);
      CountOfWrap(a[1..], x);
    }
  }

  lemma WrapMultiset(a: seq<ToolOutput>, b: seq<ToolOutput>)
    requires multiset(Wrap(a)) == multiset(Wrap(b))
    ensures multiset(a) == multiset(b)
  {
    forall x ensures multiset(a)[x] == multiset(b)[x] {
      CountOfWrap(a, x);
      CountOfWrap(b, x);
    }
  }

  /** What the preference store does during one `set_read_along`: the value
      `get_extended_events` returns (`None` when it holds nothing equal to
      an integer) or the exception of connecting or reading, then what the
      write and the closing do. */
  datatype PrefStore = PrefStore(current: Result<Option<int>>, write: Outcome, close: Outcome)

  /** The reply of `set_read_along` and the `set_extended_events(email,
      read_along)` calls it made. */
  datatype Toggle = Toggle(reply: Result<string>, writes: seq<(string, string)>)

  const InvalidReadAlong := "Invalid value for read along. Please use 0 or 1."

  /** Any integer other than 0 counts as switching read-along on. */
  function StateWord(toggle: int): (w: string)
    ensures w == "deaktiviert" <==> toggle == 0
    ensures w == "aktiviert" <==> toggle != 0
  {
    if toggle == 0 then "deaktiviert" else "aktiviert"
  }

  function NothingToDo(email: string, toggle: int): string {
    "Es musste nichts gemacht werden, Mitlesen war für " + email + " bereits " + StateWord(toggle) + "."
  }

  function Switched(email: string, toggle: int): string {
    "Mitlesen für " + email + " wurde erfolgreich " + StateWord(toggle)
  }

  /** Closing the store after the reply has been decided. */
  function Close(prefs: PrefStore, t: Toggle): Toggle {
    if prefs.close.Fail? then Toggle(Raise(prefs.close.exc), t.writes) else t
  }

  /** `set_read_along(email, read_along)`. */
  function SetReadAlong(email: string, readAlong: string, prefs: PrefStore): (t: Toggle)
    ensures |t.writes| <= 1
    ensures |t.writes| == 1 ==> t.writes[0] == (email, readAlong)
    ensures |t.writes| == 1 <==> && ParseInt(readAlong).Some? && prefs.current.Ok?
                                  && prefs.current.value != Some(ParseInt(readAlong).value)
  {
    match ParseInt(readAlong)
    case None => Toggle(Ok(InvalidReadAlong), [])
    case Some(toggle) =>
      match prefs.current
      case Raise(e) => Toggle(Raise(e), [])
      case Ok(current) =>
        if current == Some(toggle) then Close(prefs, Toggle(Ok(NothingToDo(email, toggle)), []))
        else if prefs.write.Fail? then Toggle(Raise(prefs.write.exc), [(email, readAlong)])
        else Close(prefs, Toggle(Ok(Switched(email, toggle)), [(email, readAlong)]))
  }

  /** A value that is not an integer is answered with the fixed hint and the
      store is never consulted: the outcome is the same whatever it holds. */
  lemma InvalidValueTouchesNothing(email: string, readAlong: string, prefs: PrefStore, other: PrefStore)
    requires ParseInt(readAlong).None?
    ensures SetReadAlong(email, readAlong, prefs) == SetReadAlong(email, readAlong, other)
    ensures SetReadAlong(email, readAlong, prefs) == Toggle(Ok(InvalidReadAlong), [])
  {
  }

  /** Asking for the setting already in effect writes nothing and says so. */
  lemma SameValueWritesNothing(email: string, readAlong: string, prefs: PrefStore)
    requires ParseInt(readAlong).Some? && prefs.current == Ok(Some(ParseInt(readAlong).value))
    requires prefs.close.Pass?
    ensures SetReadAlong(email, readAlong, prefs) == Toggle(Ok(NothingToDo(email, ParseInt(readAlong).value)), [])
  {
  }

  /** Asking for another setting writes it exactly once and confirms it. */
  lemma OtherValueWritesOnce(email: string, readAlong: string, prefs: PrefStore)
    requires ParseInt(readAlong).Some? && prefs.current.Ok? && prefs.current.value != Some(ParseInt(readAlong).value)
    requires prefs.write.Pass? && prefs.close.Pass?
    ensures SetReadAlong(email, readAlong, prefs) == Toggle(Ok(Switched(email, ParseInt(readAlong).value)), [(email, readAlong)])
  {
  }

  /** For the rendering of any integer `n` that `str` renders: "deaktiviert" exactly for 0,
      "aktiviert" for every other value, and a write exactly when the stored
      value differs from `n`. */
  lemma RenderedToggle(email: string, n: int, prefs: PrefStore)
    requires Renderable(n)
    requires prefs.current.Ok? && prefs.write.Pass? && prefs.close.Pass?
    ensures var t := SetReadAlong(email, ShowInt(n), prefs);
            && t.reply == Ok(if prefs.current.value == Some(n) then NothingToDo(email, n) else Switched(email, n))
            && (|t.writes| == 1 <==> prefs.current.value != Some(n))
  {
    ParseShowRoundTrip(n);
  }

  const WrongArguments := Exception(TypeError, "set_read_along() got unexpected or missing keyword arguments")

  /** `set_read_along` as a tool method: the keyword arguments must be
      exactly `email` and `read_along`. */
  function SetReadAlongTool(prefs: PrefStore): (h: Handler)
    ensures forall args: map<string, string> :: args.Keys == {"email", "read_along"} ==> h(args) == SetReadAlong(args["email"], args["read_along"], prefs).reply
    ensures forall args: map<string, string> :: args.Keys != {"email", "read_along"} ==> h(args) == Raise(WrongArguments)
  {
    (args: map<string, string>) =>
      if args.Keys == {"email", "read_along"} then SetReadAlong(args["email"], args["read_along"], prefs).reply
      else Raise(WrongArguments)
  }

  /** The tool methods by name. `set_read_along` is the only name whose call
      can return: every other attribute `getattr` finds (`execute_tool_calls`,
      `__init__`, ...) raises inside the `try`, as a missing name does, so
      leaving them out of the table changes no outcome. */
  function Tools(prefs: PrefStore): (tools: map<string, Handler>)
    ensures tools.Keys == {"set_read_along"}
    ensures tools["set_read_along"] == SetReadAlongTool(prefs)
  {
    map["set_read_along" := SetReadAlongTool(prefs)]
  }

  /** A `set_read_along` call yields its reply as output under the call id,
      or no output at all when the method raised; any other name yields no
      output. */
  lemma ReadAlongCallOutput(id: string, name: string, email: string, readAlong: string, prefs: PrefStore)
    ensures var call := ToolCall(id, "function", name, Decoded(map["email" := email, "read_along" := readAlong]));
            var reply := SetReadAlong(email, readAlong, prefs).reply;
            && (name == "set_read_along" && reply.Ok? ==> HandleToolCall(call, Tools(prefs)) == Ok(ToolOutput(id, reply.value)))
            && (name == "set_read_along" && reply.Raise? ==> HandleToolCall(call, Tools(prefs)) == Raise(ResultUnbound))
            && (name != "set_read_along" ==> HandleToolCall(call, Tools(prefs)) == Raise(ResultUnbound))
  {
    var args := map["email" := email, "read_along" := readAlong];
    assert args.Keys == {"email", "read_along"};
  }
}

=== FILE: turn.dfy ===
/** One chat turn after the thread has been resolved, shared by both
    backends: append the prompt, create a run, poll its status until it is
    terminal, and map the final status and message listing to an HTTP
    status and body. Any exception of the turn becomes status 509. */
module ChatTurn {
  import opened Errors
  import opened Remote

  const Completed := "completed"

  /** The statuses that end the poll loop; every other status, unknown ones
      included, causes another retrieval. */
  const Terminal: set<string> := {"completed", "failed", "cancelled", "expired"}

  const NoResponse := "No response message found."

  /** A retrieval that neither raised nor reported a terminal status. */
  predicate Pending(poll: Result<string>) {
    poll.Ok? && poll.value !in Terminal
  }

  /** How the poll loop ends on a trace of retrieval outcomes: at a terminal
      status or at an exception after `polls` retrievals, or not within the
      trace at all. */
  datatype Settled =
    | Stopped(status: string, polls: nat)
    | Raised(exc: Exception, polls: nat)
    | StillRunning

  /** The `while True` poll loop run against a trace of retrieval outcomes. */
  function Settle(trace: seq<Result<string>>): (o: Settled)
    ensures o.Stopped? ==> 0 < o.polls <= |trace| && trace[o.polls - 1] == Ok(o.status) && o.status in Terminal
    ensures o.Raised? ==> 0 < o.polls <= |trace| && trace[o.polls - 1] == Raise(o.exc)
    ensures !o.StillRunning? ==> forall j :: 0 <= j < o.polls - 1 ==> Pending(trace[j])
    ensures o.StillRunning? <==> forall j :: 0 <= j < |trace| ==> Pending(trace[j])
  {
    if |trace| == 0 then StillRunning
    else if trace[0].Raise? then Raised(trace[0].exc, 1)
    else if trace[0].value in Terminal then Stopped(trace[0].value, 1)
    else
      match Settle(trace[1..])
      case StillRunning => StillRunning
      case Stopped(s, k) => Stopped(s, k + 1)
      case Raised(e, k) => Raised(e, k + 1)
  }

  /** The loop stops exactly at the first retrieval that is not pending. */
  lemma {:induction false} SettleStopsAtFirst(trace: seq<Result<string>>, k: nat)
    requires k < |trace| && !Pending(trace[k])
    requires forall j :: 0 <= j < k ==> Pending(trace[j])
    ensures Settle(trace).polls == k + 1
    ensures trace[k].Ok? ==> Settle(trace) == Stopped(trace[k].value, k + 1)
    ensures trace[k].Raise? ==> Settle(trace) == Raised(trace[k].exc, k + 1)
    decreases k
  {
    if k > 0 {
      assert Pending(trace[0]);
      var rest := trace[1..];
      assert forall j :: 0 <= j < k - 1 ==> rest[j] == trace[j + 1];
      SettleStopsAtFirst(rest, k - 1);
    }
  }

  const RunStatusPrefix := "*ISSUE* **Run Status: "

  /** The diagnostic body template of the backends. */
  function IssueBody(text: string): string {
    "*ISSUE* **" + text + "**"
  }

  /** The body for a run that ended in a terminal status other than
      "completed": the status sits between a fixed prefix and "**", so the
      body names the status unambiguously. */
  function RunStatusIssue(status: string): (b: string)
    ensures |b| == |RunStatusPrefix| + |status| + 2
    ensures b[..|RunStatusPrefix|] == RunStatusPrefix
    ensures b[|RunStatusPrefix|..|b| - 2] == status
    ensures b[|b| - 2..] == "**"
  {
    IssueBody("Run Status: " + status)
  }

  /** The reply of the outermost `except`: 509 with the exception text. */
  function Caught(e: Exception): (r: Reply)
    ensures r.code == 509
  {
    Reply(509, IssueBody(e.text))
  }

  function ReplyOf(r: Result<Reply>): Reply {
    match r
    case Ok(reply) => reply
    case Raise(e) => Caught(e)
  }

  /** The reply of a completed run, read from a listing that comes newest
      first: the first text block of the newest message. */
  function Answer(messages: seq<Message>): (r: Result<Reply>)
    ensures r.Ok? ==> r.value.code == 200
    ensures r.Ok? && r.value.body != NoResponse ==> |messages| > 0 && |messages[0].content| > 0
    ensures r.Raise? ==> r.exc.kind == AttributeError && |messages| > 0 && |messages[0].content| > 0 && messages[0].content[0].OtherBlock?
    ensures |messages| > 0 && |messages[0].content| > 0 && messages[0].content[0].TextBlock? ==>
              r == Ok(Reply(200, messages[0].content[0].value))
    ensures |messages| == 0 || |messages[0].content| == 0 ==> r == Ok(Reply(200, NoResponse))
  {
    if |messages| > 0 && |messages[0].content| > 0 then
      match messages[0].content[0]
      case TextBlock(v) => Ok(Reply(200, v))
      case OtherBlock(c) => Raise(Exception(AttributeError, "'" + c + "' object has no attribute 'text'"))
    else Ok(Reply(200, NoResponse))
  }

  /** The outcome of get-or-create: the thread id or the exception, the
      table rows afterwards and the calls made. */
  datatype Resolution = Resolution(thread: Result<string>, threads: map<string, string>, effects: seq<Effect>)

  /** The outcome of a whole turn. `reply` is `None` when every retrieval of
      the trace was still pending: the turn has not ended yet. */
  datatype Turn = Turn(reply: Option<Reply>, threads: map<string, string>, effects: seq<Effect>)

  function Retrievals(threadId: string, runId: string, n: nat): (s: seq<Effect>)
    ensures |s| == n
    ensures forall i :: 0 <= i < n ==> s[i] == RetrieveRun(threadId, runId)
  {
    seq(n, _ => RetrieveRun(threadId, runId))
  }

  /** Everything `chat` does after `get_or_create_thread`. */
  function Converse(res: Resolution, prompt: string, service: Service): (t: Turn)
    ensures t.threads == res.threads
    ensures res.effects <= t.effects
    ensures t.reply.Some? ==> t.reply.value.code in {200, 500, 509}
    ensures t.reply.None? ==> Settle(service.polls).StillRunning?
  {
    match res.thread
    case Raise(e) => Turn(Some(Caught(e)), res.threads, res.effects)
    case Ok(tid) =>
      var appended := res.effects + [AppendMessage(tid, prompt)];
      if service.append.Fail? then Turn(Some(Caught(service.append.exc)), res.threads, appended)
      else
        var started := appended + [StartRun(tid)];
        match service.newRun
        case Raise(e) => Turn(Some(Caught(e)), res.threads, started)
        case Ok(rid) =>
          match Settle(service.polls)
          case StillRunning => Turn(None, res.threads, started + Retrievals(tid, rid, |service.polls|))
          case Raised(e, k) => Turn(Some(Caught(e)), res.threads, started + Retrievals(tid, rid, k))
          case Stopped(status, k) =>
            var polled := started + Retrievals(tid, rid, k);
            if status == Completed then
              var listed := polled + [ListMessages(tid)];
              match service.listing
              case Raise(e) => Turn(Some(Caught(e)), res.threads, listed)
              case Ok(messages) => Turn(Some(ReplyOf(Answer(messages))), res.threads, listed)
            else Turn(Some(Reply(500, RunStatusIssue(status))), res.threads, polled)
  }

  /** Whether an effect is addressed to the given thread. */
  predicate OnThread(e: Effect, threadId: string) {
    match e
    case AppendMessage(t, _) => t == threadId
    case StartRun(t) => t == threadId
    case RetrieveRun(t, _) => t == threadId
    case ListMessages(t) => t == threadId
    case _ => false
  }

  /** The prompt is appended before the run is created, both exactly once and
      on the resolved thread, and every later call addresses that thread. */
  lemma AppendBeforeRun(res: Resolution, prompt: string, service: Service)
    requires res.thread.Ok?
    ensures var t := Converse(res, prompt, service);
            var n := |res.effects|;
            && |t.effects| > n
            && t.effects[n] == AppendMessage(res.thread.value, prompt)
            && (service.append.Pass? ==> |t.effects| > n + 1 && t.effects[n + 1] == StartRun(res.thread.value))
            && (forall i :: n <= i < |t.effects| ==> OnThread(t.effects[i], res.thread.value))
            && (forall i :: n < i < |t.effects| ==> !t.effects[i].AppendMessage?)
            && (forall i :: n + 1 < i < |t.effects| ==> !t.effects[i].StartRun?)
  {
  }

  /** Whether the turn got as far as polling a run. */
  predicate ReachedPolling(res: Resolution, service: Service) {
    res.thread.Ok? && service.append.Pass? && service.newRun.Ok?
  }

  /** Whether some step of the turn raised. */
  predicate SomeStepRaised(res: Resolution, service: Service) {
    || res.thread.Raise?
    || service.append.Fail?
    || (res.thread.Ok? && service.newRun.Raise?)
    || (ReachedPolling(res, service) && Settle(service.polls).Raised?)
    || (ReachedPolling(res, service) && Settle(service.polls).Stopped? && Settle(service.polls).status == Completed
        && (service.listing.Raise? || Answer(service.listing.value).Raise?))
  }

  /** Which outcomes give which status code:
      500 exactly for a run that stopped in failed, cancelled or expired,
      with that status in the body; 509 exactly when some step raised;
      200 exactly for a completed run whose reply could be read. */
  lemma StatusCodes(res: Resolution, prompt: string, service: Service)
    ensures var t := Converse(res, prompt, service);
            var o := Settle(service.polls);
            && (t.reply.Some? && t.reply.value.code == 500
                <==> ReachedPolling(res, service) && o.Stopped? && o.status != Completed)
            && (t.reply.Some? && t.reply.value.code == 500
                ==> o.status in {"failed", "cancelled", "expired"} && t.reply.value.body == RunStatusIssue(o.status))
            && (t.reply.Some? && t.reply.value.code == 509 <==> SomeStepRaised(res, service))
            && (t.reply.Some? && t.reply.value.code == 200
                <==> ReachedPolling(res, service) && o.Stopped? && o.status == Completed
                     && service.listing.Ok? && Answer(service.listing.value).Ok?)
            && (t.reply.None? <==> ReachedPolling(res, service) && o.StillRunning?)
  {
  }

  /** A completed run answers with the first text block of the newest
      message, verbatim, or with the fixed fallback when there is none. */
  lemma CompletedReply(res: Resolution, prompt: string, service: Service, messages: seq<Message>)
    requires ReachedPolling(res, service)
    requires Settle(service.polls).Stopped? && Settle(service.polls).status == Completed
    requires service.listing == Ok(messages)
    ensures var t := Converse(res, prompt, service);
            && (|messages| > 0 && |messages[0].content| > 0 && messages[0].content[0].TextBlock?
                ==> t.reply == Some(Reply(200, messages[0].content[0].value)))
            && (|messages| == 0 || |messages[0].content| == 0 ==> t.reply == Some(Reply(200, NoResponse)))
  {
  }

  /** An exception ends the turn at once: 509 with the exception's text, and
      no call after the one that raised. This lemma covers the steps before
      polling; the two that follow cover the poll loop and the listing. */
  lemma ExceptionEndsTurn(res: Resolution, prompt: string, service: Service, e: Exception)
    requires || res.thread == Raise(e)
             || (res.thread.Ok? && service.append == Fail(e))
             || (res.thread.Ok? && service.append.Pass? && service.newRun == Raise(e))
    ensures var t := Converse(res, prompt, service);
            && t.reply == Some(Reply(509, IssueBody(e.text)))
            && (res.thread.Raise? ==> t.effects == res.effects)
            && (res.thread.Ok? && service.append.Fail? ==> t.effects == res.effects + [AppendMessage(res.thread.value, prompt)])
            && (res.thread.Ok? && service.append.Pass? ==>
                  t.effects == res.effects + [AppendMessage(res.thread.value, prompt), StartRun(res.thread.value)])
  {
  }

  /** A retrieval that raises ends the turn with 509 and its text; the
      retrievals made are exactly those up to and including that one. */
  lemma PollExceptionEndsTurn(res: Resolution, prompt: string, service: Service, e: Exception, k: nat)
    requires ReachedPolling(res, service)
    requires k < |service.polls| && service.polls[k] == Raise(e)
    requires forall j :: 0 <= j < k ==> Pending(service.polls[j])
    ensures var t := Converse(res, prompt, service);
            var tid := res.thread.value;
            && t.reply == Some(Reply(509, IssueBody(e.text)))
            && t.effects == res.effects + [AppendMessage(tid, prompt), StartRun(tid)]
                            + Retrievals(tid, service.newRun.value, k + 1)
  {
    SettleStopsAtFirst(service.polls, k);
  }

  /** After a completed run, a listing that raises, or a newest message whose
      first block is not text, ends the turn with 509 and that text, after
      exactly one listing call. */
  lemma ListingExceptionEndsTurn(res: Resolution, prompt: string, service: Service, e: Exception, k: nat)
    requires ReachedPolling(res, service)
    requires k < |service.polls| && service.polls[k] == Ok(Completed)
    requires forall j :: 0 <= j < k ==> Pending(service.polls[j])
    requires service.listing == Raise(e) || (service.listing.Ok? && Answer(service.listing.value) == Raise(e))
    ensures var t := Converse(res, prompt, service);
            var tid := res.thread.value;
            && t.reply == Some(Reply(509, IssueBody(e.text)))
            && t.effects == res.effects + [AppendMessage(tid, prompt), StartRun(tid)]
                            + Retrievals(tid, service.newRun.value, k + 1) + [ListMessages(tid)]
            && (service.listing.Ok? ==>
                  && e.kind == AttributeError
                  && e.text == "'" + service.listing.value[0].content[0].className + "' object has no attribute 'text'")
  {
    SettleStopsAtFirst(service.polls, k);
  }
}
